=== FILE: README.md ===
# Luxury Service storefront — a Dafny model

This project models the business logic of a browser storefront for virtual goods.
Signed-in users browse a catalogue and buy products with an internal coin balance.
Administrators approve, reject and deliver the resulting orders.
All records live in browser storage, and every rule sits in a UI event handler.

The model removes the storage plumbing. The collections (users, products,
categories, orders, notifications, logs) form an immutable `Store`, and the
stored "current user" is an explicit `Session` (`Option<AuthUser>`). Most handlers
are pure functions from a `State` (store plus session) to a `Result` that holds
the new state or an error value; each error value stands for the message the
page shows. The order action (`OrderWorkflow.ApplyAction`) and marking a
notification read (`Profile.MarkRead`) cannot fail. They are total functions on
the store and on the notification list.

Modules follow the source files:

- `Records` (`records.dfy`) holds the record types and the `Store`, plus id allocation (`getNextId`) and the `addLog` / `addNotification` helpers of `src/lib/data.ts`.
- `Persistence` (`persistence.dfy`) models the load rule of `src/lib/data.ts`: a non-empty local copy shadows the shipped document, and a save replaces the local copy.
- `Auth` (`auth.dfy`) models `src/lib/auth.ts`: accounts, the public profile, password encoding and verification, the session, and the `requireAuth` / `requireAdmin` guards.
- `Base64` (`base64.dfy`) is the encoding that `btoa` applies (section 4 of RFC 4648), with a decoder proving that it is injective.
- `Purchase` (`purchase.dfy`) models the buy button of `src/components/ProductCard.tsx`.
- `OrderWorkflow` (`workflow.dfy`) models the admin dashboard, `src/pages/AdminDashboard.tsx`. It keeps two layers apart:
  - the order-action handler, which never looks at the current status;
  - the buttons the dashboard draws, which alone encode the lifecycle pending → approved/rejected, approved → delivered.

  It also holds the revenue and per-status statistics and the ten-most-recent list.
- `Catalog` (`catalog.dfy`) models the search and category filter and the banner figures of `src/pages/Index.tsx`.
- `Accounts` (`accounts.dfy`) models registration and login, `src/pages/Login.tsx`.
- `Profile` (`profile.dfy`) models `src/pages/Profile.tsx`: profile editing, marking a notification read, the personal order and notification lists, and the unread badge.
- `Wrappers`, `Seqs`, `Sorting` and `Text` are helpers. They model the JavaScript operations the handlers use: `find` / `findIndex` / `filter`, the newest-first `sort`, `includes`, `length` in UTF-16 units, and the rendering of numbers in template literals.

Three behaviours of the code are worth stating on their own:

- The order handler sets the new status without reading the current one (`src/pages/AdminDashboard.tsx:99-130`). Only the buttons the dashboard draws (`src/pages/AdminDashboard.tsx:342-372`) encode pending → approved/rejected and approved → delivered, with delivered and rejected terminal. `HandlerIgnoresCurrentStatus` and `OfferedMatchesLifecycle` state the two layers.
- The minimum password length is checked with `password.length < 6` (`src/pages/Login.tsx:101`), which counts UTF-16 code units. `Text.Utf16Length` models that count.
- The purchase guard compares the price with the session's balance (`src/components/ProductCard.tsx:25`) but debits the stored account (`src/components/ProductCard.tsx:56`). `Purchase.DebitNeverOverdraws` shows that the stored balance stays non-negative when the two agree. `Purchase.StaleSessionCanOverdraw` shows a stale session driving the stored balance below zero.

## Model

| member | source | states |
|---|---|---|
| Records.NextId | src/lib/data.ts:171-173 | the next id is 1 for an empty collection, otherwise exactly one more than the largest existing id, so it exceeds every id in use |
| Records.NextIdExamples | src/lib/data.ts:171-173 | no ids give 1; ids 3 and 7 give 8 |
| Records.AppendFreshKeepsIdsUnique | src/lib/data.ts:171-173 | appending a record carrying the next id keeps all ids distinct |
| Records.AddLog | src/lib/data.ts:175-185 | exactly one entry is appended at the end, with the given user and action and an id above every earlier one; earlier entries are untouched |
| Records.AddNotification | src/lib/data.ts:187-198 | exactly one unread notification is appended for the given user and message, with a fresh id; earlier ones are untouched |
| Persistence.Load | src/lib/data.ts:84-98 | a collection loads as its non-empty local copy, otherwise as the shipped document |
| Persistence.Save | src/lib/data.ts:73-81 | saving replaces the local copy with the whole list and leaves the shipped document alone |
| Persistence.SaveLoadRoundTrip | src/lib/data.ts:73-98 | after saving a non-empty list, loading returns it; after saving an empty list, loading falls back to the shipped document |
| Persistence.LocalCopyShadowsFile | src/lib/data.ts:94-98 | once a non-empty local copy exists, changes to the shipped document are invisible |
| Persistence.FailureLooksEmpty | src/lib/data.ts:59-70 | a failed fetch reads exactly like an empty shipped collection |
| Persistence.PersistThenReload | src/lib/data.ts:93-168 | if a handler changes only the collections it saves and each of those is non-empty, reloading every collection returns the handler's result |
| Base64.RoundTrip | src/lib/auth.ts:24-26 | decoding the base64 text of any byte string gives back that byte string |
| Base64.EncodeInjective | src/lib/auth.ts:24-26 | two byte strings with the same base64 text are equal |
| Base64.StandardVectors | src/lib/auth.ts:24-26 | the encoding `btoa` performs gives the test vectors of section 10 of RFC 4648, "" through "Zm9vYmFy" |
| Auth.HashPassword | src/lib/auth.ts:24-26 | the stored encoding exists exactly when every password character is in U+0000..U+00FF; otherwise `btoa` throws |
| Auth.VerifyPassword | src/lib/auth.ts:28-30 | verification throws exactly when encoding the candidate throws, and succeeds exactly when the candidate's encoding equals the stored value |
| Auth.VerifyOwnHash | src/lib/auth.ts:24-30 | a password always verifies against its own stored encoding |
| Auth.HashInjective | src/lib/auth.ts:24-26 | two passwords with the same stored encoding are the same password |
| Auth.VerifyUnique | src/lib/auth.ts:28-30 | no stored value verifies two different passwords |
| Auth.SetCurrentUser | src/lib/auth.ts:32-39 | after storing a profile as the session, reading the session returns that profile |
| Auth.Logout | src/lib/auth.ts:41-48 | after logout there is no current user and the admin check is false |
| Auth.RequireAuth | src/lib/auth.ts:50-56 | fails with "authentication required" exactly when there is no session; otherwise returns the session user |
| Auth.RequireAdmin | src/lib/auth.ts:58-64 | succeeds exactly for an admin session; with no session it fails with the authentication error, otherwise with the admin error |
| Auth.LogoutLocksGuards | src/lib/auth.ts:41-64 | after logout both guards fail with the authentication error |
| Purchase.Buy | src/components/ProductCard.tsx:19-33 | guards in order: no session, then session balance below price, then stock at most zero; success exactly when all pass; products and categories are never written |
| Purchase.AppendsOnePendingOrder | src/components/ProductCard.tsx:38-50 | success appends exactly one order, with a fresh id, the buyer, the product, quantity 1, total = price, status pending and no reason |
| Purchase.DebitsBuyerOnly | src/components/ProductCard.tsx:52-62 | the buyer's first stored account loses exactly the price, every other account is unchanged, and the session carries the new balance |
| Purchase.MissingBuyerStillOrders | src/components/ProductCard.tsx:38-62 | if the buyer's account is missing, the order is still created while accounts and session stay as they were |
| Purchase.NotifiesAndLogsBuyer | src/components/ProductCard.tsx:64-68 | exactly one unread notification naming the new order and one log entry naming the product (`طلب منتج: <name>`) are appended, both for the buyer, with fresh ids and the purchase time |
| Purchase.DebitNeverOverdraws | src/components/ProductCard.tsx:25-57 | when the session balance equals the stored one, the debited stored balance is non-negative |
| Purchase.StaleSessionCanOverdraw | src/components/ProductCard.tsx:25-57 | a session showing 100 lets a price-50 product through against a stored balance of 10, leaving -40 |
| Purchase.ChangesOnlyWrites | src/components/ProductCard.tsx:38-68 | a purchase changes only orders, notifications, logs and (when the buyer is found) users, and each of these is non-empty |
| Purchase.PurchasePersists | src/components/ProductCard.tsx:38-68 | after a purchase saves its collections, reloading the store returns exactly the purchase's result |
| OrderWorkflow.EffectiveReason | src/pages/AdminDashboard.tsx:121-129 | a reason is kept exactly when it is present and non-empty |
| OrderWorkflow.MessageMentionsReasonOnlyOnReject | src/pages/AdminDashboard.tsx:110-123 | a rejection message is the bare message plus separator and reason exactly when a non-empty reason is given; approvals and deliveries never mention one |
| OrderWorkflow.ApplyAction | src/pages/AdminDashboard.tsx:99-134 | an unknown id changes nothing. Otherwise, in the first order with the id, only status (from the action) and reason (from the input) change; other orders are untouched; the owner gets one unread notification with a fresh id and the action's message; one log entry with a fresh id, naming the action and the order, goes to user 1 |
| OrderWorkflow.NeverBackToPending | src/pages/AdminDashboard.tsx:107-130 | no action makes any order pending that was not pending before |
| OrderWorkflow.HandlerIgnoresCurrentStatus | src/pages/AdminDashboard.tsx:99-130 | the handler alone accepts approving a delivered order and makes it approved |
| OrderWorkflow.OfferedMatchesLifecycle | src/pages/AdminDashboard.tsx:342-372 | a button is drawn exactly for actions leading along pending→approved, pending→rejected or approved→delivered; delivered and rejected orders get none |
| OrderWorkflow.RecentOrders | src/pages/AdminDashboard.tsx:88-90 | the list holds min(10, number of orders) orders, newest first, and takes no order more often than it occurs among the orders |
| OrderWorkflow.RecentAreNewest | src/pages/AdminDashboard.tsx:88-90 | every order left off the list is no newer than every order on it |
| OrderWorkflow.UiPressFollowsLifecycle | src/pages/AdminDashboard.tsx:314-372 | with unique ids, pressing a drawn button moves the listed order along a lifecycle transition and leaves every other order alone |
| OrderWorkflow.UiPressKeepsReasonInvariant | src/pages/AdminDashboard.tsx:342-372 | through the drawn buttons, a rejection reason only ever sits on a rejected order |
| OrderWorkflow.RevenueAppend | src/pages/AdminDashboard.tsx:68-70 | revenue over concatenated order lists is the sum of the parts |
| OrderWorkflow.RevenueUpdate | src/pages/AdminDashboard.tsx:68-70 | replacing one order changes revenue by the difference of the two orders' contributions |
| OrderWorkflow.ActionRevenueEffect | src/pages/AdminDashboard.tsx:68-130 | an offered approve adds the order's price to revenue; an offered reject or deliver leaves revenue unchanged |
| OrderWorkflow.Stats | src/pages/AdminDashboard.tsx:67-86 | the totals are the collection sizes; revenue is the sum over approved and delivered orders; each status count is the number of orders with that status, and the four add up to the total order count |
| OrderWorkflow.CountsPartition | src/pages/AdminDashboard.tsx:72-75 | every order is counted under exactly one of pending, approved, delivered, rejected |
| Catalog.FilterProducts | src/pages/Index.tsx:68-83 | a product is shown iff it is in the catalogue, matches the lower-cased term in name or description (when the term is non-empty), and is in the chosen category (unless "all") |
| Catalog.FilterProductsIsOnePass | src/pages/Index.tsx:68-83 | the search pass followed by the category pass keeps exactly the products a single pass with the combined test keeps, in the same order and with the same repetitions |
| Catalog.FilterKeepsOrder | src/pages/Index.tsx:68-83 | the shown products are an order-preserving subsequence of the catalogue |
| Catalog.FilterIdempotent | src/pages/Index.tsx:68-83 | filtering the shown products again with the same term and category returns them unchanged |
| Catalog.EmptyTermIsCategoryOnly | src/pages/Index.tsx:71-80 | with an empty term the case mapping is irrelevant, and "all" then shows the whole catalogue |
| Catalog.StorefrontRevenue | src/pages/Index.tsx:50-52 | the storefront's left-to-right sum equals the dashboard's revenue: approved and delivered totals |
| Catalog.LoadStats | src/pages/Index.tsx:49-59 | the storefront banner shows the same user, product and order counts and revenue as the dashboard |
| Text.Contains | src/pages/Index.tsx:72-75 | `includes` holds iff the needle occurs at some position of the text |
| Text.Utf16Length | src/pages/Login.tsx:101-104 | the length the password rule measures is the character count plus the number of characters beyond U+FFFF; it equals the character count exactly when there are none |
| Text.IntToString | src/pages/AdminDashboard.tsx:113-134 | the text put after `#` in order messages is a minus sign exactly for negative numbers, followed by decimal digits whose value is the number's magnitude |
| Text.NatToString | src/components/ProductCard.tsx:65 | the digits denote exactly the number, with no leading zero |
| Text.Utf16LengthAppend | src/pages/Login.tsx:101-104 | the measured length of a concatenation is the sum of the two lengths |
| Accounts.Register | src/pages/Login.tsx:90-132 | rejections in order: mismatched confirmation, then under 6 UTF-16 units, then email taken, then username taken. Success exactly when all pass and the password is encodable. The catch-all failure occurs exactly when all four checks pass but the password has a character beyond U+00FF. On success exactly one log entry is appended ("إنشاء حساب جديد" for the new account's id), and the session and all other collections except users are unchanged |
| Accounts.RegisterAppendsOneUser | src/pages/Login.tsx:118-131 | success appends exactly one account: fresh id, role user, balance 0, encoded password, and the form's email, username, full name and address |
| Accounts.RegisterKeepsUnique | src/pages/Login.tsx:106-131 | if emails, usernames and ids were unique before a registration, they still are after |
| Accounts.Login | src/pages/Login.tsx:46-81 | an unknown email and a wrong password are distinct failures. The encoding failure occurs exactly for a known email with a non-Latin-1 password. A password that encodes to the stored value of the first account with that email always succeeds, and success means the password encodes to the stored value of the first account with that email; the session becomes that account's public profile; the admin panel is the target iff the role is admin; only the log grows |
| Accounts.RegisteredUserCanLogIn | src/pages/Login.tsx:46-131 | right after registering, logging in with the same email and password succeeds, stores the new profile and targets the storefront |
| Profile.SaveProfile | src/pages/Profile.tsx:103-153 | a missing account fails first, then a username or email held by another id. On success only username, full name, address and email of that account change; the session becomes its public profile; one log entry is added |
| Profile.SaveKeepsUnique | src/pages/Profile.tsx:118-137 | with unique ids, a saved edit keeps usernames and emails unique |
| Profile.DuplicateIdDefeatsUniqueness | src/pages/Profile.tsx:118-126 | when two accounts share an id, an edit can give one of them the other's email |
| Profile.MarkRead | src/pages/Profile.tsx:165-172 | only the read flag changes, and it becomes set exactly on the notifications with the id |
| Profile.MarkReadIdempotent | src/pages/Profile.tsx:165-172 | marking the same id twice gives the same list as marking once |
| Profile.MarkReadUnreadCount | src/pages/Profile.tsx:165-172 | marking read lowers the unread count by exactly the unread notifications with that id, and never raises it |
| Profile.BadgeShownIffUnread | src/pages/Profile.tsx:270-274 | the badge is drawn iff its count of unread notifications is positive |
| Profile.UserOrders | src/pages/Profile.tsx:87-89 | the personal order list holds every order of the user, with its multiplicity and nothing else, newest first |
| Profile.UserNotifications | src/pages/Profile.tsx:92-94 | the personal notification list holds every notification of the user, with its multiplicity and nothing else, newest first |
| Sorting.SortDesc | src/pages/Profile.tsx:89 | the newest-first sort is a permutation of its input, ordered by non-increasing creation time |

## Left out

- Fetching documents, browser storage and JSON parsing are abstracted. `Persistence.Slot` holds the fetched document (or the failure) and the local copy (or its absence). Errors swallowed by `saveData` are not modelled.
- Asynchronous interleaving and races between tabs or devices are left out. Each handler is one atomic step. Partial failure is represented only by the purchase branch where the buyer's account is missing.
- The `catch` branches that show a generic message after an I/O error are left out, because I/O cannot fail in the model. The exceptions from `btoa` are modelled (`RegistrationFailed`, `LoginFailed`).
- Clocks: `new Date().toISOString()` becomes one integer `now` per handler, though the source reads the clock several times. Comparing invalid dates (NaN) in the sorts is not modelled.
- Catalog.FilterProducts: `toLowerCase` is a parameter `lower`, because Unicode case mapping is not modelled. Each property holds for every such function.
- `parseInt` on the category selector is replaced by an integer category id or "all".
- JavaScript numbers are modelled as unbounded integers. Floating-point prices, rounding, and the exponent notation of numbers ≥ 10^21 in messages are not modelled.
- Text.Utf16Length: JavaScript strings may hold lone UTF-16 surrogates, while Dafny strings hold only Unicode scalar values. The length of such malformed input is therefore not modelled.
- Auth.IsLatin1: for the same reason, a password holding a lone surrogate (which `btoa` rejects) cannot be represented.
- The stack-size limit of `Math.max(...ids)` on huge collections is not modelled.
- Sorting.SortDesc: the contract states order and permutation, but not that equal timestamps keep their input order, although the JavaScript sort is stable and the insertion sort here is too.
- OrderWorkflow.RecentOrders: for the same reason, the contract does not say which of several orders with the same timestamp at the tenth place are kept.
- Purchase.Buy: the card reads the session when it is drawn. The model uses the single session of the state it is given.
- `setNotifications(prev.map(...))` in `markNotificationAsRead` repeats `Profile.MarkRead` on the page's own list, so it is not modelled separately.
- The page-load guards (`requireAdmin` in the dashboard's effect, `requireAuth` on the profile page) are modelled as `Auth.RequireAdmin` / `Auth.RequireAuth`, but are not wired into the handlers, which do not call them.
- Rendering is left out: JSX, icons, colours, labels, `alert`, `prompt`, `navigate`, `setTimeout`, loading flags, and the redirect of a logged-in visitor away from the login page. The disabled state of the buy button repeats the purchase guards. `src/components/Navbar.tsx`, `src/components/LoadingScreen.tsx` and `src/components/AdminSidebar.tsx` are presentation only.
- The `Coupon` type and `saveProducts` / `saveCategories` / `saveCoupons`: no modelled flow uses them. `Persistence.Persist` covers saves to products and categories generically.
- The forgotten-password handler touches no stored data: it logs a link to the console and shows an alert.

=== FILE: accounts.dfy ===
/** Registration and login (src/pages/Login.tsx). Both forms load the stored
    accounts; registration appends one, login stores the account's public
    profile as the session. */
module Accounts {
  import opened Wrappers
  import opened Auth
  import opened Records
  import Seqs
  import Text

  datatype RegisterForm = RegisterForm(
    email: string,
    password: string,
    confirmPassword: string,
    username: string,
    fullName: string,
    address: string)

  /** The messages registration can show, in the order they are checked;
      `RegistrationFailed` is the catch-all shown when encoding the password throws. */
  datatype RegisterError =
    PasswordMismatch | PasswordTooShort | EmailTaken | UsernameTaken | RegistrationFailed

  const MinPasswordLength: nat := 6
  const RegisteredLogEntry: string := "إنشاء حساب جديد"
  const LoginLogEntry: string := "تسجيل دخول"

  predicate EmailInUse(users: seq<User>, email: string)
  {
    exists j :: 0 <= j < |users| && users[j].email == email
  }

  predicate UsernameInUse(users: seq<User>, username: string)
  {
    exists j :: 0 <= j < |users| && users[j].username == username
  }

  /** The account a successful registration creates. */
  function NewUser(users: seq<User>, form: RegisterForm, stored: string, now: int): User
  {
    User(NextId(users, UserId), form.email, stored, form.username, form.fullName, form.address,
         UserRole, 0, now)
  }

  /** `handleRegister`. The length rule counts UTF-16 code units, as
      `password.length` does. */
  function Register(st: State, form: RegisterForm, now: int): (r: Result<State, RegisterError>)
    ensures form.password != form.confirmPassword ==> r == Failure(PasswordMismatch)
    ensures form.password == form.confirmPassword
              && Text.Utf16Length(form.password) < MinPasswordLength ==>
              r == Failure(PasswordTooShort)
    ensures form.password == form.confirmPassword
              && Text.Utf16Length(form.password) >= MinPasswordLength
              && EmailInUse(st.store.users, form.email) ==>
              r == Failure(EmailTaken)
    ensures form.password == form.confirmPassword
              && Text.Utf16Length(form.password) >= MinPasswordLength
              && !EmailInUse(st.store.users, form.email)
              && UsernameInUse(st.store.users, form.username) ==>
              r == Failure(UsernameTaken)
    ensures r.Success? <==>
              && form.password == form.confirmPassword
              && Text.Utf16Length(form.password) >= MinPasswordLength
              && !EmailInUse(st.store.users, form.email)
              && !UsernameInUse(st.store.users, form.username)
              && IsLatin1(form.password)
    ensures r == Failure(RegistrationFailed) <==>
              && form.password == form.confirmPassword
              && Text.Utf16Length(form.password) >= MinPasswordLength
              && !EmailInUse(st.store.users, form.email)
              && !UsernameInUse(st.store.users, form.username)
              && !IsLatin1(form.password)
    ensures r.Success? ==>
              && r.value.session == st.session
              && r.value.store.(users := st.store.users, logs := st.store.logs) == st.store
              && r.value.store.logs
                   == AddLog(st.store.logs, NextId(st.store.users, UserId), RegisteredLogEntry, now)
  {
    if form.password != form.confirmPassword then Failure(PasswordMismatch)
    else if Text.Utf16Length(form.password) < MinPasswordLength then Failure(PasswordTooShort)
    else if EmailInUse(st.store.users, form.email) then Failure(EmailTaken)
    else if UsernameInUse(st.store.users, form.username) then Failure(UsernameTaken)
    else match HashPassword(form.password)
      case None => Failure(RegistrationFailed)
      case Some(stored) =>
        var u := NewUser(st.store.users, form, stored, now);
        Success(st.(store := st.store.(users := st.store.users + [u],
                                        logs := AddLog(st.store.logs, u.id, RegisteredLogEntry, now))))
  }

  /** A successful registration appends exactly one account: fresh id, role
      `user`, balance 0, the encoded password, the form's other fields. */
  lemma RegisterAppendsOneUser(st: State, form: RegisterForm, now: int)
    requires Register(st, form, now).Success?
    ensures var users, users' := st.store.users, Register(st, form, now).value.store.users;
      && |users'| == |users| + 1
      && users'[..|users|] == users
      && var u := users'[|users|];
         && (forall j :: 0 <= j < |users| ==> users[j].id < u.id)
         && u.role == UserRole && u.balance == 0
         && Some(u.password) == HashPassword(form.password)
         && u.email == form.email && u.username == form.username
         && u.fullName == form.fullName && u.address == form.address
  {
    var users := st.store.users;
    var u := NewUser(users, form, HashPassword(form.password).value, now);
    assert (users + [u])[..|users|] == users;
  }

  /** Registration keeps emails, usernames and ids unique. */
  lemma RegisterKeepsUnique(st: State, form: RegisterForm, now: int)
    requires Register(st, form, now).Success?
    requires UniqueIdentities(st.store.users)
    requires UniqueIds(st.store.users, UserId)
    ensures UniqueIdentities(Register(st, form, now).value.store.users)
    ensures UniqueIds(Register(st, form, now).value.store.users, UserId)
  {
    var users := st.store.users;
    var users' := Register(st, form, now).value.store.users;
    var u := users'[|users|];
    forall i, j | 0 <= i < j < |users'|
      ensures users'[i].email != users'[j].email && users'[i].username != users'[j].username
    {
      if j == |users| {
        assert users'[i] == users[i];
        assert !EmailInUse(users, u.email);
      }
    }
    Records.AppendFreshKeepsIdsUnique(users, UserId, u);
  }

  datatype LoginError = UnknownEmail | WrongPassword | LoginFailed
  datatype Destination = AdminPanel | Home
  datatype LoginOutcome = LoginOutcome(state: State, destination: Destination)

  /** The first account with the given email (`users.find`). */
  function FindByEmail(users: seq<User>, email: string): (r: Option<nat>)
    ensures r.Some? ==> r.value < |users| && users[r.value].email == email
    ensures r.Some? ==> forall j :: 0 <= j < r.value ==> users[j].email != email
    ensures r.None? <==> !EmailInUse(users, email)
  {
    Seqs.FindFirst(users, (u: User) => u.email == email)
  }

  /** `handleLogin`: an unknown email and a wrong password are distinct errors;
      on success the session is the account's public profile and admins are
      sent to the admin panel. */
  function Login(st: State, email: string, password: string, now: int)
    : (r: Result<LoginOutcome, LoginError>)
    ensures r == Failure(UnknownEmail) <==> !EmailInUse(st.store.users, email)
    ensures r == Failure(WrongPassword) <==>
              FindByEmail(st.store.users, email).Some?
              && VerifyPassword(password, st.store.users[FindByEmail(st.store.users, email).value].password)
                 == Some(false)
    ensures r == Failure(LoginFailed) <==> EmailInUse(st.store.users, email) && !IsLatin1(password)
    ensures FindByEmail(st.store.users, email).Some?
            && HashPassword(password) == Some(st.store.users[FindByEmail(st.store.users, email).value].password)
            ==> r.Success?
    ensures r.Success? ==>
              var u := st.store.users[FindByEmail(st.store.users, email).value];
              && HashPassword(password) == Some(u.password)
              && r.value.state.session == Some(PublicProfile(u))
              && (r.value.destination == AdminPanel <==> u.role == AdminRole)
              && r.value.state.store.(logs := st.store.logs) == st.store
              && r.value.state.store.logs == AddLog(st.store.logs, u.id, LoginLogEntry, now)
  {
    match FindByEmail(st.store.users, email)
    case None => Failure(UnknownEmail)
    case Some(i) =>
      var u := st.store.users[i];
      match VerifyPassword(password, u.password)
      case None => Failure(LoginFailed)
      case Some(ok) =>
        if !ok then Failure(WrongPassword)
        else
          var store := st.store.(logs := AddLog(st.store.logs, u.id, LoginLogEntry, now));
          Success(LoginOutcome(State(store, SetCurrentUser(PublicProfile(u))),
                               if u.role == AdminRole then AdminPanel else Home))
  }

  /** Someone who has just registered can log in with the same email and
      password, and lands on the storefront with their new profile. */
  lemma RegisteredUserCanLogIn(st: State, form: RegisterForm, now: int, later: int)
    requires Register(st, form, now).Success?
    ensures var st' := Register(st, form, now).value;
      var u := st'.store.users[|st.store.users|];
      && Login(st', form.email, form.password, later).Success?
      && Login(st', form.email, form.password, later).value.state.session == Some(PublicProfile(u))
      && Login(st', form.email, form.password, later).value.destination == Home
  {
    var users := st.store.users;
    var st' := Register(st, form, now).value;
    var users' := st'.store.users;
    RegisterAppendsOneUser(st, form, now);
    var u := users'[|users|];
    assert users'[|users|].email == form.email;
    var f := FindByEmail(users', form.email);
    assert f.Some?;
    assert f.value == |users|;
  }
}

=== FILE: auth.dfy ===
/** Accounts, the stored session and the password encoding (src/lib/auth.ts).
    The session that the browser keeps under the `currentUser` key is an
    explicit `Session` value: `None` when nothing is stored. */
module Auth {
  import opened Wrappers
  import Base64

  datatype Role = AdminRole | UserRole

  /** A stored account, password included. Timestamps are plain integers. */
  datatype User = User(
    id: int,
    email: string,
    password: string,
    username: string,
    fullName: string,
    address: string,
    role: Role,
    balance: int,
    createdAt: int)

  /** The public profile kept as the session: every field but the password
      and the creation time. */
  datatype AuthUser = AuthUser(
    id: int,
    email: string,
    username: string,
    fullName: string,
    address: string,
    role: Role,
    balance: int)

  type Session = Option<AuthUser>

  /** The trimmed profile that login and profile editing store as the session. */
  function PublicProfile(u: User): AuthUser
  {
    AuthUser(u.id, u.email, u.username, u.fullName, u.address, u.role, u.balance)
  }

  /** The constant suffix appended to every password before encoding. */
  const Salt: string := "luxury_service_salt"

  /** `btoa` only accepts characters U+0000..U+00FF and throws otherwise. */
  predicate IsLatin1(s: string)
  {
    forall j :: 0 <= j < |s| ==> s[j] as int < 256
  }

  function Latin1Bytes(s: string): (bs: seq<Base64.Byte>)
    requires IsLatin1(s)
    ensures |bs| == |s|
    ensures forall j :: 0 <= j < |s| ==> bs[j] == s[j] as int
  {
    seq(|s|, j requires 0 <= j < |s| => s[j] as int)
  }

  /** `hashPassword`: base64 of the salted password; `None` stands for the
      exception `btoa` throws on a character above U+00FF. */
  function HashPassword(password: string): (r: Option<string>)
    ensures r.Some? <==> IsLatin1(password)
  {
    var salted := password + Salt;
    assert IsLatin1(Salt);
    assert forall j :: 0 <= j < |password| ==> salted[j] == password[j];
    assert forall j :: |password| <= j < |salted| ==> salted[j] == Salt[j - |password|];
    if IsLatin1(salted) then Some(Base64.Encode(Latin1Bytes(salted))) else None
  }

  /** `verifyPassword`: `None` when encoding the candidate throws, otherwise
      whether its encoding equals the stored value. */
  function VerifyPassword(password: string, stored: string): (r: Option<bool>)
    ensures r.None? <==> !IsLatin1(password)
    ensures r == Some(true) <==> HashPassword(password) == Some(stored)
  {
    match HashPassword(password)
    case None => None
    case Some(h) => Some(h == stored)
  }

  /** A password always verifies against its own encoding. */
  lemma VerifyOwnHash(password: string)
    requires IsLatin1(password)
    ensures VerifyPassword(password, HashPassword(password).value) == Some(true)
  {
  }

  /** The encoding is injective: two different passwords never verify
      against the same stored value. */
  lemma HashInjective(p: string, q: string)
    requires HashPassword(p).Some? && HashPassword(p) == HashPassword(q)
    ensures p == q
  {
    var sp, sq := p + Salt, q + Salt;
    Base64.EncodeInjective(Latin1Bytes(sp), Latin1Bytes(sq));
    assert |sp| == |sq|;
    forall j | 0 <= j < |p| ensures p[j] == q[j] {
      assert sp[j] == p[j] && sq[j] == q[j];
      assert Latin1Bytes(sp)[j] == Latin1Bytes(sq)[j];
    }
  }

  lemma VerifyUnique(p: string, q: string, stored: string)
    requires VerifyPassword(p, stored) == Some(true)
    requires VerifyPassword(q, stored) == Some(true)
    ensures p == q
  {
    HashInjective(p, q);
  }

  /** `setCurrentUser`. */
  function SetCurrentUser(u: AuthUser): (s: Session)
    ensures GetCurrentUser(s) == Some(u)
  {
    Some(u)
  }

  /** `getCurrentUser`. */
  function GetCurrentUser(s: Session): Option<AuthUser>
  {
    s
  }

  /** `logout` removes the stored session. */
  function Logout(): (s: Session)
    ensures GetCurrentUser(s).None? && !IsAdmin(s)
  {
    None
  }

  /** `isAdmin`. */
  predicate IsAdmin(s: Session)
  {
    match GetCurrentUser(s)
    case None => false
    case Some(u) => u.role == AdminRole
  }

  datatype GuardError = AuthenticationRequired | AdminAccessRequired

  /** `requireAuth`: the session user, or the error it throws. */
  function RequireAuth(s: Session): (r: Result<AuthUser, GuardError>)
    ensures r.Failure? <==> GetCurrentUser(s).None?
    ensures r.Failure? ==> r.error == AuthenticationRequired
    ensures r.Success? ==> GetCurrentUser(s) == Some(r.value)
  {
    match GetCurrentUser(s)
    case None => Failure(AuthenticationRequired)
    case Some(u) => Success(u)
  }

  /** `requireAdmin`: authentication is checked first, then the role. */
  function RequireAdmin(s: Session): (r: Result<AuthUser, GuardError>)
    ensures r.Success? <==> IsAdmin(s)
    ensures GetCurrentUser(s).None? ==> r == Failure(AuthenticationRequired)
    ensures GetCurrentUser(s).Some? && !IsAdmin(s) ==> r == Failure(AdminAccessRequired)
    ensures r.Success? ==> GetCurrentUser(s) == Some(r.value)
  {
    var u :- RequireAuth(s);
    if u.role != AdminRole then Failure(AdminAccessRequired) else Success(u)
  }

  /** After a logout neither guard admits anyone. */
  lemma LogoutLocksGuards()
    ensures RequireAuth(Logout()) == Failure(AuthenticationRequired)
    ensures RequireAdmin(Logout()) == Failure(AuthenticationRequired)
  {
  }
}

=== FILE: base64.dfy ===
/** Base64 encoding as in section 4 of RFC 4648 (alphabet `A`-`Z`, `a`-`z`,
    `0`-`9`, `+`, `/`, with `=` padding): the encoding the browser's `btoa`
    applies to a string whose characters all lie in U+0000..U+00FF. */
module Base64 {
  import opened Wrappers

  type Byte = x: int | 0 <= x < 256

  /** The character of the base64 alphabet for the 6-bit value `n`. */
  function Sym(n: int): (c: char)
    requires 0 <= n < 64
  {
    if n < 26 then ('A' as int + n) as char
    else if n < 52 then ('a' as int + (n - 26)) as char
    else if n < 62 then ('0' as int + (n - 52)) as char
    else if n == 62 then '+'
    else '/'
  }

  /** The 6-bit value of an alphabet character, or -1 for any other character. */
  function SymValue(c: char): (v: int)
    ensures -1 <= v < 64
    ensures v >= 0 ==> Sym(v) == c
  {
    if 'A' <= c <= 'Z' then c as int - 'A' as int
    else if 'a' <= c <= 'z' then c as int - 'a' as int + 26
    else if '0' <= c <= '9' then c as int - '0' as int + 52
    else if c == '+' then 62
    else if c == '/' then 63
    else -1
  }

  lemma SymValueOfSym(n: int)
    requires 0 <= n < 64
    ensures SymValue(Sym(n)) == n
  {
  }

  /** Three bytes as four alphabet characters. */
  function EncodeBlock(b0: Byte, b1: Byte, b2: Byte): string
  {
    [Sym(b0 / 4), Sym((b0 % 4) * 16 + b1 / 16), Sym((b1 % 16) * 4 + b2 / 64), Sym(b2 % 64)]
  }

  /** A final group of one byte, padded with `==`. */
  function EncodeSingle(b0: Byte): string
  {
    [Sym(b0 / 4), Sym((b0 % 4) * 16), '=', '=']
  }

  /** A final group of two bytes, padded with `=`. */
  function EncodePair(b0: Byte, b1: Byte): string
  {
    [Sym(b0 / 4), Sym((b0 % 4) * 16 + b1 / 16), Sym((b1 % 16) * 4), '=']
  }

  /** The encoding of a byte sequence; a final group of one or two bytes is
      padded with `==` or `=`. */
  function Encode(bs: seq<Byte>): (r: string)
    ensures |r| % 4 == 0
  {
    if |bs| == 0 then ""
    else if |bs| == 1 then EncodeSingle(bs[0])
    else if |bs| == 2 then EncodePair(bs[0], bs[1])
    else
      EncodeBlock(bs[0], bs[1], bs[2]) + Encode(bs[3..])
  }

  /** Decodes four characters to between one and three bytes, or fails when a
      character is outside the alphabet. */
  function DecodeQuantum(q: string): Option<seq<Byte>>
    requires |q| == 4
  {
    var v0, v1 := SymValue(q[0]), SymValue(q[1]);
    if v0 < 0 || v1 < 0 then None
    else if q[2] == '=' && q[3] == '=' then
      Some([v0 * 4 + v1 / 16])
    else
      var v2 := SymValue(q[2]);
      if v2 < 0 then None
      else if q[3] == '=' then
        Some([v0 * 4 + v1 / 16, (v1 % 16) * 16 + v2 / 4])
      else
        var v3 := SymValue(q[3]);
        if v3 < 0 then None
        else Some([v0 * 4 + v1 / 16, (v1 % 16) * 16 + v2 / 4, (v2 % 4) * 64 + v3])
  }

  /** The inverse of `Encode` on its image. */
  function Decode(s: string): Option<seq<Byte>>
    decreases |s|
  {
    if |s| == 0 then Some([])
    else if |s| < 4 then None
    else
      var head :- DecodeQuantum(s[..4]);
      var tail :- Decode(s[4..]);
      Some(head + tail)
  }

  /** Splitting a byte at bit 2, 4 or 6 and joining the halves again. */
  lemma Rejoin(b: Byte)
    ensures (b / 4) * 4 + b % 4 == b
    ensures (b / 16) * 16 + b % 16 == b
    ensures (b / 64) * 64 + b % 64 == b
  {
  }

  /** A value `hi * m + lo` with `lo < m` is split back into `hi` and `lo`. */
  lemma SplitSextet(hi: int, lo: int)
    requires 0 <= hi < 4 && 0 <= lo < 16
    ensures (hi * 16 + lo) / 16 == hi && (hi * 16 + lo) % 16 == lo
  {
  }

  lemma SplitSextet2(hi: int, lo: int)
    requires 0 <= hi < 16 && 0 <= lo < 4
    ensures (hi * 4 + lo) / 4 == hi && (hi * 4 + lo) % 4 == lo
  {
  }

  lemma BlockRoundTrip(b0: Byte, b1: Byte, b2: Byte)
    ensures DecodeQuantum(EncodeBlock(b0, b1, b2)) == Some([b0, b1, b2])
  {
    var s0, s1, s2, s3 := b0 / 4, (b0 % 4) * 16 + b1 / 16, (b1 % 16) * 4 + b2 / 64, b2 % 64;
    SymValueOfSym(s0);
    SymValueOfSym(s1);
    SymValueOfSym(s2);
    SymValueOfSym(s3);
    SplitSextet(b0 % 4, b1 / 16);
    SplitSextet2(b1 % 16, b2 / 64);
    Rejoin(b0);
    Rejoin(b1);
    Rejoin(b2);
    assert s0 * 4 + s1 / 16 == b0;
    assert (s1 % 16) * 16 + s2 / 4 == b1;
    assert (s2 % 4) * 64 + s3 == b2;
    var q := EncodeBlock(b0, b1, b2);
    assert q == [Sym(s0), Sym(s1), Sym(s2), Sym(s3)];
    assert q[2] != '=' && q[3] != '=';
  }

  lemma PairRoundTrip(b0: Byte, b1: Byte)
    ensures DecodeQuantum(EncodePair(b0, b1)) == Some([b0, b1])
  {
    var s0, s1, s2 := b0 / 4, (b0 % 4) * 16 + b1 / 16, (b1 % 16) * 4;
    SymValueOfSym(s0);
    SymValueOfSym(s1);
    SymValueOfSym(s2);
    SplitSextet(b0 % 4, b1 / 16);
    SplitSextet2(b1 % 16, 0);
    Rejoin(b0);
    Rejoin(b1);
    assert s0 * 4 + s1 / 16 == b0;
    assert (s1 % 16) * 16 + s2 / 4 == b1;
    assert Sym(s2) != '=';
  }

  lemma SingleRoundTrip(b0: Byte)
    ensures DecodeQuantum(EncodeSingle(b0)) == Some([b0])
  {
    SymValueOfSym(b0 / 4);
    SymValueOfSym((b0 % 4) * 16);
    Rejoin(b0);
  }

  /** Decoding a well-formed quantum followed by a decodable rest. */
  lemma DecodeCons(q: string, rest: string, h: seq<Byte>, t: seq<Byte>)
    requires |q| == 4
    requires DecodeQuantum(q) == Some(h)
    requires Decode(rest) == Some(t)
    ensures Decode(q + rest) == Some(h + t)
  {
    assert (q + rest)[..4] == q;
    assert (q + rest)[4..] == rest;
  }

  lemma RoundTripSingle(bs: seq<Byte>)
    requires |bs| == 1
    ensures Decode(Encode(bs)) == Some(bs)
  {
    SingleRoundTrip(bs[0]);
    DecodeCons(EncodeSingle(bs[0]), "", [bs[0]], []);
    assert EncodeSingle(bs[0]) + "" == Encode(bs);
    assert [bs[0]] + [] == bs;
  }

  lemma RoundTripPair(bs: seq<Byte>)
    requires |bs| == 2
    ensures Decode(Encode(bs)) == Some(bs)
  {
    PairRoundTrip(bs[0], bs[1]);
    DecodeCons(EncodePair(bs[0], bs[1]), "", [bs[0], bs[1]], []);
    assert EncodePair(bs[0], bs[1]) + "" == Encode(bs);
    assert [bs[0], bs[1]] + [] == bs;
  }

  /** Decoding undoes encoding, so `Encode` is injective. */
  lemma {:induction false} RoundTrip(bs: seq<Byte>)
    ensures Decode(Encode(bs)) == Some(bs)
    decreases |bs|
  {
    if |bs| == 1 {
      RoundTripSingle(bs);
    } else if |bs| == 2 {
      RoundTripPair(bs);
    } else if |bs| >= 3 {
      BlockRoundTrip(bs[0], bs[1], bs[2]);
      RoundTrip(bs[3..]);
      var q, rest := EncodeBlock(bs[0], bs[1], bs[2]), Encode(bs[3..]);
      assert Encode(bs) == q + rest;
      DecodeCons(q, rest, [bs[0], bs[1], bs[2]], bs[3..]);
      assert [bs[0], bs[1], bs[2]] + bs[3..] == bs;
    }
  }

  lemma EncodeInjective(a: seq<Byte>, b: seq<Byte>)
    requires Encode(a) == Encode(b)
    ensures a == b
  {
    RoundTrip(a);
    RoundTrip(b);
  }

  /** The test vectors of section 10 of RFC 4648: the prefixes of "foobar". */
  lemma StandardVectors()
    ensures Encode([]) == ""
    ensures Encode([102]) == "Zg=="
    ensures Encode([102, 111]) == "Zm8="
    ensures Encode([102, 111, 111]) == "Zm9v"
    ensures Encode([102, 111, 111, 98]) == "Zm9vYg=="
    ensures Encode([102, 111, 111, 98, 97]) == "Zm9vYmE="
    ensures Encode([102, 111, 111, 98, 97, 114]) == "Zm9vYmFy"
  {
  }
}

=== FILE: catalog.dfy ===
/** The storefront page (src/pages/Index.tsx): the product filter driven by the
    search box and the category selector, and the figures shown in its banner.
    `toLowerCase` is a parameter `lower`, so every property below holds for
    whatever case mapping the browser applies. */
module Catalog {
  import opened Records
  import Seqs
  import Text
  import OrderWorkflow

  /** The category selector: the value `all`, or a category id (the selector's
      value after `parseInt`). */
  datatype CategoryChoice = AllCategories | OnlyCategory(id: int)

  /** The product's name or description contains the term, both lower-cased. */
  predicate MatchesSearch(p: Product, term: string, lower: string -> string)
  {
    Text.Contains(lower(p.name), lower(term)) || Text.Contains(lower(p.description), lower(term))
  }

  predicate InCategory(p: Product, choice: CategoryChoice)
  {
    match choice
    case AllCategories => true
    case OnlyCategory(c) => p.categoryId == c
  }

  /** The search filter's and the category filter's predicates as values. */
  function SearchTest(term: string, lower: string -> string): Product -> bool
  {
    (p: Product) => MatchesSearch(p, term, lower)
  }

  function CategoryTest(c: int): Product -> bool
  {
    (p: Product) => p.categoryId == c
  }

  /** What the page keeps: the search applies only to a non-empty term. */
  predicate Kept(p: Product, term: string, choice: CategoryChoice, lower: string -> string)
  {
    (term == "" || MatchesSearch(p, term, lower)) && InCategory(p, choice)
  }

  function KeptTest(term: string, choice: CategoryChoice, lower: string -> string): Product -> bool
  {
    (p: Product) => Kept(p, term, choice, lower)
  }

  /** `filterProducts`: first the search filter (skipped for an empty term),
      then the category filter (skipped for `all`). */
  function FilterProducts(products: seq<Product>, term: string, choice: CategoryChoice,
                          lower: string -> string): (r: seq<Product>)
    ensures forall j :: 0 <= j < |r| ==> r[j] in products && Kept(r[j], term, choice, lower)
    ensures forall j :: 0 <= j < |products| && Kept(products[j], term, choice, lower) ==>
              products[j] in r
  {
    var searched :=
      if term != "" then Seqs.Filter(products, SearchTest(term, lower)) else products;
    match choice
    case AllCategories => searched
    case OnlyCategory(c) => Seqs.Filter(searched, CategoryTest(c))
  }

  /** The page's two passes keep exactly what a single pass with `Kept` keeps:
      the same products, in the same order, with the same repetitions. */
  lemma FilterProductsIsOnePass(products: seq<Product>, term: string, choice: CategoryChoice,
                                lower: string -> string)
    ensures FilterProducts(products, term, choice, lower)
         == Seqs.Filter(products, KeptTest(term, choice, lower))
  {
    var kept := KeptTest(term, choice, lower);
    var search := SearchTest(term, lower);
    match choice
    case AllCategories =>
      if term != "" {
        Seqs.FilterCongruent(products, search, kept);
      } else {
        Seqs.FilterAllPass(products, kept);
      }
    case OnlyCategory(c) =>
      if term != "" {
        Seqs.FilterFilter(products, search, CategoryTest(c), kept);
      } else {
        Seqs.FilterCongruent(products, CategoryTest(c), kept);
      }
  }

  /** The result keeps the catalogue's order: it is a subsequence of it. */
  lemma FilterKeepsOrder(products: seq<Product>, term: string, choice: CategoryChoice,
                         lower: string -> string)
    ensures Seqs.IsSubsequence(FilterProducts(products, term, choice, lower), products)
  {
    var search := SearchTest(term, lower);
    var searched := if term != "" then Seqs.Filter(products, search) else products;
    if term != "" {
      Seqs.FilterIsSubsequence(products, search);
    } else {
      Seqs.SubsequenceReflexive(products);
    }
    match choice
    case AllCategories =>
    case OnlyCategory(c) =>
      Seqs.FilterIsSubsequence(searched, CategoryTest(c));
      Seqs.SubsequenceTransitive(Seqs.Filter(searched, CategoryTest(c)), searched, products);
  }

  /** Filtering the result again with the same term and category returns it
      unchanged. */
  lemma FilterIdempotent(products: seq<Product>, term: string, choice: CategoryChoice,
                         lower: string -> string)
    ensures var once := FilterProducts(products, term, choice, lower);
      FilterProducts(once, term, choice, lower) == once
  {
    var once := FilterProducts(products, term, choice, lower);
    if term != "" {
      assert forall j :: 0 <= j < |once| ==> SearchTest(term, lower)(once[j]);
      Seqs.FilterAllPass(once, SearchTest(term, lower));
    }
    match choice
    case AllCategories =>
    case OnlyCategory(c) =>
      assert forall j :: 0 <= j < |once| ==> CategoryTest(c)(once[j]);
      Seqs.FilterAllPass(once, CategoryTest(c));
  }

  /** With an empty term only the category applies, and `all` with an empty
      term shows the whole catalogue. */
  lemma EmptyTermIsCategoryOnly(products: seq<Product>, choice: CategoryChoice,
                                lower: string -> string, lower': string -> string)
    ensures FilterProducts(products, "", choice, lower) == FilterProducts(products, "", choice, lower')
    ensures FilterProducts(products, "", AllCategories, lower) == products
  {
  }

  datatype StorefrontStats = StorefrontStats(
    totalUsers: nat,
    totalProducts: nat,
    totalOrders: nat,
    totalRevenue: int)

  /** The banner revenue, summed left to right over the orders as `reduce`
      does, counting approved and delivered orders only. */
  method StorefrontRevenue(orders: seq<Order>) returns (total: int)
    ensures total == OrderWorkflow.Revenue(orders)
  {
    total := 0;
    var i := 0;
    while i < |orders|
      invariant 0 <= i <= |orders|
      invariant total == OrderWorkflow.Revenue(orders[..i])
    {
      assert orders[..i + 1] == orders[..i] + [orders[i]];
      OrderWorkflow.RevenueAppend(orders[..i], [orders[i]]);
      OrderWorkflow.RevenueSingle(orders[i]);
      if OrderWorkflow.Earning(orders[i]) {
        total := total + orders[i].totalPrice;
      }
      i := i + 1;
    }
    assert orders[..i] == orders;
  }

  /** `loadData`'s figures; they agree with the admin dashboard's. */
  method LoadStats(s: Store) returns (r: StorefrontStats)
    ensures var d := OrderWorkflow.Stats(s);
      && r.totalRevenue == d.totalRevenue
      && r.totalUsers == d.totalUsers && r.totalProducts == d.totalProducts
      && r.totalOrders == d.totalOrders
  {
    var revenue := StorefrontRevenue(s.orders);
    r := StorefrontStats(|s.users|, |s.products|, |s.orders|, revenue);
  }
}

=== FILE: persistence.dfy ===
/** How each collection is read and written (src/lib/data.ts): `loadData`
    fetches the shipped JSON document, `loadFromStorage` reads the browser's
    local copy, and every `loadX` prefers a non-empty local copy; `saveData`
    overwrites the local copy with the whole collection. */
module Persistence {
  import opened Wrappers
  import opened Auth
  import opened Records

  /** What fetching the shipped document produced. */
  datatype Fetched<T> = Fetched(items: seq<T>) | FetchFailed

  /** One collection's two sources: the shipped document and the local copy
      (`None` when the key is absent, empty or not valid JSON). */
  datatype Slot<T> = Slot(file: Fetched<T>, local: Option<seq<T>>)

  /** `loadData`: a failed or unreadable fetch yields an empty list. */
  function FileData<T>(f: Fetched<T>): seq<T>
  {
    match f
    case Fetched(items) => items
    case FetchFailed => []
  }

  /** `loadFromStorage`: a missing or unreadable local copy yields an empty list. */
  function StorageData<T>(s: Slot<T>): seq<T>
  {
    match s.local
    case Some(items) => items
    case None => []
  }

  /** `loadUsers`, `loadOrders`, ...: the local copy when it is non-empty,
      otherwise the shipped document. */
  function Load<T>(s: Slot<T>): (r: seq<T>)
    ensures |StorageData(s)| > 0 ==> r == StorageData(s)
    ensures |StorageData(s)| == 0 ==> r == FileData(s.file)
  {
    var stored := StorageData(s);
    if |stored| > 0 then stored else FileData(s.file)
  }

  /** `saveData`: the whole collection replaces the local copy. */
  function Save<T>(s: Slot<T>, items: seq<T>): (r: Slot<T>)
    ensures r.file == s.file
    ensures StorageData(r) == items
  {
    s.(local := Some(items))
  }

  /** Saving a non-empty list and loading returns that list; saving an empty
      list makes the next load fall back to the shipped document. */
  lemma SaveLoadRoundTrip<T>(s: Slot<T>, items: seq<T>)
    ensures |items| > 0 ==> Load(Save(s, items)) == items
    ensures |items| == 0 ==> Load(Save(s, items)) == FileData(s.file)
  {
  }

  /** Once a non-empty local copy exists, the shipped document is never seen
      again, whatever it holds. */
  lemma LocalCopyShadowsFile<T>(s: Slot<T>, other: Fetched<T>)
    requires |StorageData(s)| > 0
    ensures Load(s.(file := other)) == Load(s)
  {
  }

  /** A failed fetch with no local copy is indistinguishable from an empty
      collection. */
  lemma FailureLooksEmpty<T>(local: Option<seq<T>>)
    ensures Load(Slot(FetchFailed, local)) == Load(Slot(Fetched([]), local))
  {
  }

  /** The storage behind every collection a handler touches. */
  datatype Backing = Backing(
    users: Slot<User>,
    products: Slot<Product>,
    categories: Slot<Category>,
    orders: Slot<Order>,
    notifications: Slot<Notification>,
    logs: Slot<Log>)

  datatype Collection = Users | Products | Categories | Orders | Notifications | Logs

  /** What every handler sees when it loads the collections. */
  function View(b: Backing): Store
  {
    Store(Load(b.users), Load(b.products), Load(b.categories),
          Load(b.orders), Load(b.notifications), Load(b.logs))
  }

  /** A handler's writes: the listed collections of `after` are saved whole;
      the others keep their storage. */
  function Persist(b: Backing, after: Store, written: set<Collection>): (r: Backing)
    ensures Users !in written ==> r.users == b.users
    ensures Products !in written ==> r.products == b.products
    ensures Categories !in written ==> r.categories == b.categories
    ensures Orders !in written ==> r.orders == b.orders
    ensures Notifications !in written ==> r.notifications == b.notifications
    ensures Logs !in written ==> r.logs == b.logs
  {
    Backing(
      if Users in written then Save(b.users, after.users) else b.users,
      if Products in written then Save(b.products, after.products) else b.products,
      if Categories in written then Save(b.categories, after.categories) else b.categories,
      if Orders in written then Save(b.orders, after.orders) else b.orders,
      if Notifications in written then Save(b.notifications, after.notifications) else b.notifications,
      if Logs in written then Save(b.logs, after.logs) else b.logs)
  }

  /** The collections of `before` and `after` that differ. */
  ghost predicate OnlyWritten(before: Store, after: Store, written: set<Collection>)
  {
    && (Users !in written ==> after.users == before.users)
    && (Products !in written ==> after.products == before.products)
    && (Categories !in written ==> after.categories == before.categories)
    && (Orders !in written ==> after.orders == before.orders)
    && (Notifications !in written ==> after.notifications == before.notifications)
    && (Logs !in written ==> after.logs == before.logs)
  }

  /** Every written collection is non-empty, so its save is visible. */
  ghost predicate WrittenNonEmpty(after: Store, written: set<Collection>)
  {
    && (Users in written ==> |after.users| > 0)
    && (Products in written ==> |after.products| > 0)
    && (Categories in written ==> |after.categories| > 0)
    && (Orders in written ==> |after.orders| > 0)
    && (Notifications in written ==> |after.notifications| > 0)
    && (Logs in written ==> |after.logs| > 0)
  }

  /** A handler's result survives a reload: if it changed only what it writes
      and every list it writes is non-empty, loading again yields its result. */
  lemma PersistThenReload(b: Backing, after: Store, written: set<Collection>)
    requires OnlyWritten(View(b), after, written)
    requires WrittenNonEmpty(after, written)
    ensures View(Persist(b, after, written)) == after
  {
    var r := Persist(b, after, written);
    SaveLoadRoundTrip(b.users, after.users);
    SaveLoadRoundTrip(b.products, after.products);
    SaveLoadRoundTrip(b.categories, after.categories);
    SaveLoadRoundTrip(b.orders, after.orders);
    SaveLoadRoundTrip(b.notifications, after.notifications);
    SaveLoadRoundTrip(b.logs, after.logs);
  }
}

=== FILE: profile.dfy ===
/** The profile page (src/pages/Profile.tsx): editing one's own account,
    marking a notification read, and the personal order and notification lists
    with the unread badge. */
module Profile {
  import opened Wrappers
  import opened Auth
  import opened Records
  import Seqs
  import Sorting

  datatype ProfileEdit = ProfileEdit(username: string, fullName: string, address: string, email: string)

  datatype ProfileError = AccountNotFound | IdentityTaken

  const ProfileLogEntry: string := "تحديث بيانات الملف الشخصي"

  /** Another account (any other id) already holds the new username or email. */
  predicate Clashes(u: User, userId: int, edit: ProfileEdit)
  {
    u.id != userId && (u.username == edit.username || u.email == edit.email)
  }

  predicate AnyClash(users: seq<User>, userId: int, edit: ProfileEdit)
  {
    exists j :: 0 <= j < |users| && Clashes(users[j], userId, edit)
  }

  /** The edited account: only the four form fields change. */
  function Edited(u: User, edit: ProfileEdit): User
  {
    u.(username := edit.username, fullName := edit.fullName, address := edit.address, email := edit.email)
  }

  /** `handleSaveProfile` for the account with id `userId`. */
  function SaveProfile(st: State, userId: int, edit: ProfileEdit, now: int): (r: Result<State, ProfileError>)
    ensures FindUser(st.store.users, userId).None? ==> r == Failure(AccountNotFound)
    ensures FindUser(st.store.users, userId).Some? && AnyClash(st.store.users, userId, edit) ==>
              r == Failure(IdentityTaken)
    ensures r.Success? <==>
              FindUser(st.store.users, userId).Some? && !AnyClash(st.store.users, userId, edit)
    ensures r.Success? ==>
              var users, users' := st.store.users, r.value.store.users;
              var i := FindUser(users, userId).value;
              && |users'| == |users|
              && users'[i].(username := users[i].username, fullName := users[i].fullName,
                            address := users[i].address, email := users[i].email) == users[i]
              && users'[i].username == edit.username && users'[i].email == edit.email
              && users'[i].fullName == edit.fullName && users'[i].address == edit.address
              && (forall j :: 0 <= j < |users| && j != i ==> users'[j] == users[j])
              && r.value.session == Some(PublicProfile(users'[i]))
              && r.value.store.(users := users, logs := st.store.logs) == st.store
              && r.value.store.logs == AddLog(st.store.logs, userId, ProfileLogEntry, now)
  {
    match FindUser(st.store.users, userId)
    case None => Failure(AccountNotFound)
    case Some(i) =>
      if AnyClash(st.store.users, userId, edit) then Failure(IdentityTaken)
      else
        var updated := Edited(st.store.users[i], edit);
        Success(State(
          st.store.(users := st.store.users[i := updated],
                    logs := AddLog(st.store.logs, userId, ProfileLogEntry, now)),
          SetCurrentUser(PublicProfile(updated))))
  }

  /** With unique ids, a saved edit keeps usernames and emails unique. */
  lemma SaveKeepsUnique(st: State, userId: int, edit: ProfileEdit, now: int)
    requires SaveProfile(st, userId, edit, now).Success?
    requires UniqueIdentities(st.store.users)
    requires UniqueIds(st.store.users, UserId)
    ensures UniqueIdentities(SaveProfile(st, userId, edit, now).value.store.users)
  {
    var users := st.store.users;
    var users' := SaveProfile(st, userId, edit, now).value.store.users;
    var k := FindUser(users, userId).value;
    forall i, j | 0 <= i < j < |users'|
      ensures users'[i].email != users'[j].email && users'[i].username != users'[j].username
    {
      if i == k || j == k {
        var other := if i == k then j else i;
        assert users'[other] == users[other];
        assert UserId(users[other]) != UserId(users[k]);
        assert !Clashes(users[other], userId, edit);
      }
    }
  }

  /** Without unique ids the guard is not enough: a second account sharing
      the editor's id is exempt from the check and can end up with the same
      email. */
  lemma DuplicateIdDefeatsUniqueness(a: User, b: User, now: int)
    requires a.id == b.id && a.email != b.email && a.username != b.username
    ensures var st := State(Store([a, b], [], [], [], [], []), None);
      var edit := ProfileEdit(a.username, a.fullName, a.address, b.email);
      && UniqueIdentities(st.store.users)
      && SaveProfile(st, a.id, edit, now).Success?
      && !UniqueIdentities(SaveProfile(st, a.id, edit, now).value.store.users)
  {
    var st := State(Store([a, b], [], [], [], [], []), None);
    var edit := ProfileEdit(a.username, a.fullName, a.address, b.email);
    assert FindUser(st.store.users, a.id) == Some(0);
    assert !AnyClash(st.store.users, a.id, edit);
    var users' := SaveProfile(st, a.id, edit, now).value.store.users;
    assert users'[0].email == users'[1].email;
  }

  // ---------------------------------------------------------------------
  // Notifications
  // ---------------------------------------------------------------------

  /** `markNotificationAsRead`: every notification with the id is marked read. */
  function MarkRead(ns: seq<Notification>, id: int): (r: seq<Notification>)
    ensures |r| == |ns|
    ensures forall j :: 0 <= j < |ns| ==> r[j].(read := ns[j].read) == ns[j]
    ensures forall j :: 0 <= j < |ns| ==> r[j].read == (ns[j].read || ns[j].id == id)
  {
    if |ns| == 0 then []
    else [if ns[0].id == id then ns[0].(read := true) else ns[0]] + MarkRead(ns[1..], id)
  }

  /** Marking twice is marking once. */
  lemma MarkReadIdempotent(ns: seq<Notification>, id: int)
    ensures MarkRead(MarkRead(ns, id), id) == MarkRead(ns, id)
  {
    var once := MarkRead(ns, id);
    var twice := MarkRead(once, id);
    forall j | 0 <= j < |ns| ensures twice[j] == once[j] {
      assert twice[j].(read := once[j].read) == once[j];
    }
  }

  predicate Unread(n: Notification) { !n.read }

  /** The number on the unread badge. */
  function UnreadCount(ns: seq<Notification>): nat
  {
    Seqs.Count(ns, Unread)
  }

  /** Marking read never raises the unread count, and lowers it exactly by the
      unread notifications carrying that id. */
  lemma {:induction false} MarkReadUnreadCount(ns: seq<Notification>, id: int)
    ensures UnreadCount(MarkRead(ns, id))
         == UnreadCount(ns) - Seqs.Count(ns, UnreadWithId(id))
    ensures UnreadCount(MarkRead(ns, id)) <= UnreadCount(ns)
  {
    if |ns| > 0 {
      MarkReadUnreadCount(ns[1..], id);
      assert MarkRead(ns, id)[1..] == MarkRead(ns[1..], id);
    }
  }

  function UnreadWithId(id: int): Notification -> bool
  {
    (n: Notification) => !n.read && n.id == id
  }

  /** The badge is drawn when some notification is unread (`some`) and shows
      the count (`filter(...).length`); it is drawn iff the count is positive. */
  lemma BadgeShownIffUnread(ns: seq<Notification>)
    ensures (exists j :: 0 <= j < |ns| && !ns[j].read) <==> UnreadCount(ns) > 0
  {
    if UnreadCount(ns) > 0 {
      assert !forall j :: 0 <= j < |ns| ==> !Unread(ns[j]);
    }
  }

  // ---------------------------------------------------------------------
  // Personal lists
  // ---------------------------------------------------------------------

  function OrderOwnedBy(userId: int): Order -> bool
  {
    (o: Order) => o.userId == userId
  }

  function NotificationFor(userId: int): Notification -> bool
  {
    (n: Notification) => n.userId == userId
  }

  /** `loadUserData`'s order list: the user's orders, newest first. */
  function UserOrders(orders: seq<Order>, userId: int): (r: seq<Order>)
    ensures Sorting.SortedDesc(r, OrderCreatedAt)
    ensures forall o :: multiset(r)[o] == if o.userId == userId then multiset(orders)[o] else 0
  {
    var mine := Seqs.Filter(orders, OrderOwnedBy(userId));
    var r := Sorting.SortDesc(mine, OrderCreatedAt);
    assert forall o :: multiset(r)[o] == multiset(mine)[o];
    forall o ensures multiset(r)[o] == if o.userId == userId then multiset(orders)[o] else 0 {
      Seqs.FilterMultiplicity(orders, OrderOwnedBy(userId), o);
    }
    r
  }

  /** `loadUserData`'s notification list: the user's notifications, newest first. */
  function UserNotifications(ns: seq<Notification>, userId: int): (r: seq<Notification>)
    ensures Sorting.SortedDesc(r, NotificationCreatedAt)
    ensures forall n :: multiset(r)[n] == if n.userId == userId then multiset(ns)[n] else 0
  {
    var mine := Seqs.Filter(ns, NotificationFor(userId));
    var r := Sorting.SortDesc(mine, NotificationCreatedAt);
    forall n ensures multiset(r)[n] == if n.userId == userId then multiset(ns)[n] else 0 {
      Seqs.FilterMultiplicity(ns, NotificationFor(userId), n);
    }
    r
  }
}

=== FILE: purchase.dfy ===
/** The "buy now" handler of a product card (src/components/ProductCard.tsx).
    The session is the one the card read when it was drawn; the product is the
    card's own copy of the record. */
module Purchase {
  import opened Wrappers
  import opened Auth
  import opened Records
  import Text
  import Persistence

  datatype PurchaseError = LoginRequired | InsufficientBalance | OutOfStock

  /** The notification text: a new order `#id` for the named product. */
  function OrderCreatedMessage(orderId: int, productName: string): string
  {
    "تم إنشاء طلب جديد #" + Text.IntToString(orderId) + " للمنتج " + productName
  }

  /** The log text: a product was ordered. */
  function OrderedLogEntry(productName: string): string
  {
    "طلب منتج: " + productName
  }

  /** The pending order a successful purchase appends. */
  function NewOrder(orders: seq<Order>, buyer: AuthUser, product: Product, now: int): Order
  {
    Order(NextId(orders, OrderId), buyer.id, product.id, 1, product.price, None, Pending, None, now)
  }

  /** `handlePurchase`: three guards, then an order, a debit, a notification
      and a log entry. */
  function Buy(st: State, product: Product, now: int): (r: Result<State, PurchaseError>)
    // the guards, in the order they are checked
    ensures st.session.None? ==> r == Failure(LoginRequired)
    ensures st.session.Some? && st.session.value.balance < product.price ==>
              r == Failure(InsufficientBalance)
    ensures st.session.Some? && st.session.value.balance >= product.price && product.stock <= 0 ==>
              r == Failure(OutOfStock)
    ensures r.Success? <==>
              st.session.Some? && st.session.value.balance >= product.price && product.stock > 0
    // products and categories are never written
    ensures r.Success? ==> r.value.store.products == st.store.products
    ensures r.Success? ==> r.value.store.categories == st.store.categories
  {
    match st.session
    case None => Failure(LoginRequired)
    case Some(buyer) =>
      if buyer.balance < product.price then Failure(InsufficientBalance)
      else if product.stock <= 0 then Failure(OutOfStock)
      else
        var s := st.store;
        var order := NewOrder(s.orders, buyer, product, now);
        var (users, session) :=
          match FindUser(s.users, buyer.id)
          case None => (s.users, st.session)
          case Some(i) =>
            var debited := s.users[i].(balance := s.users[i].balance - product.price);
            (s.users[i := debited], Some(buyer.(balance := debited.balance)));
        Success(State(
          s.(users := users,
             orders := s.orders + [order],
             notifications := AddNotification(s.notifications, buyer.id,
                                OrderCreatedMessage(order.id, product.name), now),
             logs := AddLog(s.logs, buyer.id, OrderedLogEntry(product.name), now)),
          session))
  }

  /** A successful purchase appends exactly one pending order for the buyer,
      priced at the product's price, with a fresh id. */
  lemma AppendsOnePendingOrder(st: State, product: Product, now: int)
    requires Buy(st, product, now).Success?
    ensures var s, s' := st.store, Buy(st, product, now).value.store;
      && |s'.orders| == |s.orders| + 1
      && s'.orders[..|s.orders|] == s.orders
      && var o := s'.orders[|s.orders|];
         && o.userId == st.session.value.id && o.productId == product.id
         && o.quantity == 1 && o.totalPrice == product.price
         && o.status == Pending && o.rejectionReason.None?
         && forall j :: 0 <= j < |s.orders| ==> s.orders[j].id < o.id
  {
    var s := st.store;
    assert (s.orders + [NewOrder(s.orders, st.session.value, product, now)])[..|s.orders|] == s.orders;
  }

  /** The buyer's stored balance drops by exactly the price, every other
      account is unchanged, and the session carries the new balance. */
  lemma DebitsBuyerOnly(st: State, product: Product, now: int, i: nat)
    requires Buy(st, product, now).Success?
    requires i < |st.store.users| && st.store.users[i].id == st.session.value.id
    requires forall j :: 0 <= j < i ==> st.store.users[j].id != st.session.value.id
    ensures var r := Buy(st, product, now).value;
      && |r.store.users| == |st.store.users|
      && r.store.users[i] == st.store.users[i].(balance := st.store.users[i].balance - product.price)
      && (forall j :: 0 <= j < |st.store.users| && j != i ==> r.store.users[j] == st.store.users[j])
      && r.session == Some(st.session.value.(balance := st.store.users[i].balance - product.price))
  {
    var f := FindUser(st.store.users, st.session.value.id);
    assert f == Some(i);
  }

  /** If the buyer's account is missing from the store the order is still
      created, no account changes, and the session keeps its old balance. */
  lemma MissingBuyerStillOrders(st: State, product: Product, now: int)
    requires Buy(st, product, now).Success?
    requires forall j :: 0 <= j < |st.store.users| ==> st.store.users[j].id != st.session.value.id
    ensures var r := Buy(st, product, now).value;
      && r.store.users == st.store.users
      && r.session == st.session
      && |r.store.orders| == |st.store.orders| + 1
  {
  }

  /** Exactly one unread notification and one log entry are appended, both for
      the buyer, both with fresh ids and the purchase time; the notification
      names the new order's id and the log entry the product. */
  lemma NotifiesAndLogsBuyer(st: State, product: Product, now: int)
    requires Buy(st, product, now).Success?
    ensures var s, s' := st.store, Buy(st, product, now).value.store;
      && |s'.notifications| == |s.notifications| + 1
      && s'.notifications[..|s.notifications|] == s.notifications
      && s'.notifications[|s.notifications|].userId == st.session.value.id
      && !s'.notifications[|s.notifications|].read
      && s'.notifications[|s.notifications|].message
           == OrderCreatedMessage(s'.orders[|s.orders|].id, product.name)
      && |s'.logs| == |s.logs| + 1
      && s'.logs[..|s.logs|] == s.logs
      && s'.logs[|s.logs|].userId == st.session.value.id
      && s'.notifications
           == AddNotification(s.notifications, st.session.value.id,
                              OrderCreatedMessage(s'.orders[|s.orders|].id, product.name), now)
      && s'.logs == AddLog(s.logs, st.session.value.id, OrderedLogEntry(product.name), now)
  {
  }

  /** When the session's balance is the stored one, the guard keeps the
      stored balance non-negative after the debit. */
  lemma DebitNeverOverdraws(st: State, product: Product, now: int, i: nat)
    requires Buy(st, product, now).Success?
    requires i < |st.store.users| && st.store.users[i].id == st.session.value.id
    requires forall j :: 0 <= j < i ==> st.store.users[j].id != st.session.value.id
    requires st.store.users[i].balance == st.session.value.balance
    ensures Buy(st, product, now).value.store.users[i].balance >= 0
  {
    DebitsBuyerOnly(st, product, now, i);
  }

  /** The balance guard reads the session, not the stored account: a session
      showing 100 lets a product priced 50 through even when the stored
      balance is 10, which then becomes -40. */
  lemma StaleSessionCanOverdraw(u: User, product: Product, now: int)
    requires u.balance == 10 && product.price == 50 && product.stock > 0
    ensures var st := State(Store([u], [], [], [], [], []), Some(PublicProfile(u).(balance := 100)));
      && Buy(st, product, now).Success?
      && Buy(st, product, now).value.store.users[0].balance == -40
  {
    var st := State(Store([u], [], [], [], [], []), Some(PublicProfile(u).(balance := 100)));
    assert FindUser(st.store.users, u.id) == Some(0);
  }

  /** The collections a purchase saves: orders, notifications and logs, and
      users only when the buyer's account was found. */
  function Writes(st: State): set<Persistence.Collection>
    requires st.session.Some?
  {
    {Persistence.Orders, Persistence.Notifications, Persistence.Logs}
      + (if FindUser(st.store.users, st.session.value.id).Some? then {Persistence.Users} else {})
  }

  /** A purchase changes only the collections it saves, and each is non-empty. */
  lemma ChangesOnlyWrites(st: State, product: Product, now: int)
    requires Buy(st, product, now).Success?
    ensures var after := Buy(st, product, now).value.store;
      && Persistence.OnlyWritten(st.store, after, Writes(st))
      && Persistence.WrittenNonEmpty(after, Writes(st))
  {
    var after := Buy(st, product, now).value.store;
    if FindUser(st.store.users, st.session.value.id).None? {
      assert after.users == st.store.users;
    } else {
      assert |after.users| == |st.store.users| > 0;
    }
  }

  /** Everything a purchase saves is what the next load returns. */
  lemma PurchasePersists(b: Persistence.Backing, session: Session, product: Product, now: int)
    requires Buy(State(Persistence.View(b), session), product, now).Success?
    ensures var st := State(Persistence.View(b), session);
      var after := Buy(st, product, now).value.store;
      Persistence.View(Persistence.Persist(b, after, Writes(st))) == after
  {
    var st := State(Persistence.View(b), session);
    var after := Buy(st, product, now).value.store;
    ChangesOnlyWrites(st, product, now);
    Persistence.PersistThenReload(b, after, Writes(st));
  }
}

=== FILE: records.dfy ===
/** The record types of the storefront and the helpers that allocate ids and
    append log entries and notifications (src/lib/data.ts). Every collection is
    a sequence in load order; `Store` gathers the collections the handlers read
    and write, and `State` adds the browser's stored session. */
module Records {
  import opened Wrappers
  import opened Auth
  import Seqs

  datatype Product = Product(
    id: int,
    name: string,
    description: string,
    price: int,
    image: Option<string>,
    categoryId: int,
    stock: int,
    createdAt: int)

  datatype Category = Category(
    id: int,
    name: string,
    description: string,
    image: Option<string>,
    order: int)

  datatype Status = Pending | Approved | Delivered | Rejected

  datatype Order = Order(
    id: int,
    userId: int,
    productId: int,
    quantity: int,
    totalPrice: int,
    couponId: Option<int>,
    status: Status,
    rejectionReason: Option<string>,
    createdAt: int)

  datatype Notification = Notification(
    id: int,
    userId: int,
    message: string,
    createdAt: int,
    read: bool)

  datatype Log = Log(
    id: int,
    userId: int,
    action: string,
    timestamp: int)

  datatype Store = Store(
    users: seq<User>,
    products: seq<Product>,
    categories: seq<Category>,
    orders: seq<Order>,
    notifications: seq<Notification>,
    logs: seq<Log>)

  datatype State = State(store: Store, session: Session)

  function UserId(u: User): int { u.id }
  function OrderId(o: Order): int { o.id }
  function NotificationId(n: Notification): int { n.id }
  function LogId(l: Log): int { l.id }
  function OrderCreatedAt(o: Order): int { o.createdAt }
  function NotificationCreatedAt(n: Notification): int { n.createdAt }

  /** The first stored account with the given id (`users.findIndex`). */
  function FindUser(users: seq<User>, id: int): (r: Option<nat>)
    ensures r.Some? ==> r.value < |users| && users[r.value].id == id
    ensures r.Some? ==> forall j :: 0 <= j < r.value ==> users[j].id != id
    ensures r.None? ==> forall j :: 0 <= j < |users| ==> users[j].id != id
  {
    Seqs.FindFirst(users, (u: User) => u.id == id)
  }

  /** The largest id of a non-empty collection. */
  function MaxId<T>(items: seq<T>, id: T -> int): (m: int)
    requires |items| > 0
    ensures forall j :: 0 <= j < |items| ==> id(items[j]) <= m
    ensures exists j :: 0 <= j < |items| && id(items[j]) == m
  {
    if |items| == 1 then
      id(items[0])
    else
      var rest := MaxId(items[1..], id);
      assert forall j :: 1 <= j < |items| ==> items[j] == items[1..][j - 1];
      if id(items[0]) >= rest then id(items[0]) else rest
  }

  /** `getNextId`: one more than the largest id, or 1 for an empty collection. */
  function NextId<T>(items: seq<T>, id: T -> int): (r: int)
    ensures |items| == 0 ==> r == 1
    ensures forall j :: 0 <= j < |items| ==> id(items[j]) < r
    ensures |items| > 0 ==> exists j :: 0 <= j < |items| && id(items[j]) == r - 1
  {
    if |items| > 0 then MaxId(items, id) + 1 else 1
  }

  /** Every element keeps its own id: no id is used twice. */
  ghost predicate UniqueIds<T>(items: seq<T>, id: T -> int)
  {
    forall i, j :: 0 <= i < j < |items| ==> id(items[i]) != id(items[j])
  }

  /** Appending a record with the next id keeps ids unique. */
  lemma AppendFreshKeepsIdsUnique<T>(items: seq<T>, id: T -> int, x: T)
    requires UniqueIds(items, id)
    requires id(x) == NextId(items, id)
    ensures UniqueIds(items + [x], id)
  {
  }

  /** `addLog`: one entry appended with a fresh id, the given user and action. */
  function AddLog(logs: seq<Log>, userId: int, action: string, now: int): (r: seq<Log>)
    ensures |r| == |logs| + 1 && r[..|logs|] == logs
    ensures r[|logs|].userId == userId && r[|logs|].action == action
    ensures r[|logs|].timestamp == now
    ensures forall j :: 0 <= j < |logs| ==> logs[j].id < r[|logs|].id
    ensures |logs| == 0 ==> r[0].id == 1
  {
    logs + [Log(NextId(logs, LogId), userId, action, now)]
  }

  /** `addNotification`: one unread notification appended with a fresh id. */
  function AddNotification(ns: seq<Notification>, userId: int, message: string, now: int)
    : (r: seq<Notification>)
    ensures |r| == |ns| + 1 && r[..|ns|] == ns
    ensures r[|ns|].userId == userId && r[|ns|].message == message
    ensures !r[|ns|].read && r[|ns|].createdAt == now
    ensures forall j :: 0 <= j < |ns| ==> ns[j].id < r[|ns|].id
    ensures |ns| == 0 ==> r[0].id == 1
  {
    ns + [Notification(NextId(ns, NotificationId), userId, message, now, false)]
  }

  /** The `getNextId` examples: 1 for nothing, 8 after ids 3 and 7. */
  lemma NextIdExamples()
    ensures NextId([] , LogId) == 1
    ensures NextId([Log(3, 0, "", 0), Log(7, 0, "", 0)], LogId) == 8
  {
    var two := [Log(3, 0, "", 0), Log(7, 0, "", 0)];
    assert LogId(two[0]) == 3 && LogId(two[1]) == 7;
  }

  /** Emails and usernames are each held by at most one account. */
  ghost predicate UniqueIdentities(users: seq<User>)
  {
    forall i, j :: 0 <= i < j < |users| ==>
      users[i].email != users[j].email && users[i].username != users[j].username
  }
}

=== FILE: seqs.dfy ===
/** Generic sequence helpers that mirror the JavaScript array methods the
    storefront uses: `find`/`findIndex`, `filter` and `filter(...).length`. */
module Seqs {
  import opened Wrappers

  /** `findIndex`: the position of the first element satisfying `p`, if any. */
  function FindFirst<T>(s: seq<T>, p: T -> bool): (r: Option<nat>)
    ensures r.Some? ==> r.value < |s| && p(s[r.value])
    ensures r.Some? ==> forall j :: 0 <= j < r.value ==> !p(s[j])
    ensures r.None? <==> forall j :: 0 <= j < |s| ==> !p(s[j])
  {
    if |s| == 0 then None
    else if p(s[0]) then Some(0)
    else match FindFirst(s[1..], p)
      case None => None
      case Some(k) => Some(k + 1)
  }

  /** `filter`: the elements satisfying `p`, in their original order. */
  function Filter<T>(s: seq<T>, p: T -> bool): (r: seq<T>)
    ensures |r| <= |s|
    ensures forall j :: 0 <= j < |r| ==> r[j] in s && p(r[j])
    ensures forall j :: 0 <= j < |s| && p(s[j]) ==> s[j] in r
  {
    if |s| == 0 then []
    else if p(s[0]) then [s[0]] + Filter(s[1..], p)
    else Filter(s[1..], p)
  }

  /** `a` is an order-preserving subsequence of `b`. */
  ghost predicate IsSubsequence<T>(a: seq<T>, b: seq<T>)
  {
    if |a| == 0 then true
    else if |b| == 0 then false
    else (a[0] == b[0] && IsSubsequence(a[1..], b[1..])) || IsSubsequence(a, b[1..])
  }

  lemma {:induction false} SubsequenceReflexive<T>(s: seq<T>)
    ensures IsSubsequence(s, s)
  {
    if |s| > 0 {
      SubsequenceReflexive(s[1..]);
    }
  }

  lemma {:induction false} SubsequenceTransitive<T>(a: seq<T>, b: seq<T>, c: seq<T>)
    requires IsSubsequence(a, b) && IsSubsequence(b, c)
    ensures IsSubsequence(a, c)
    decreases |c|
  {
    if |a| > 0 {
      if IsSubsequence(b, c[1..]) {
        SubsequenceTransitive(a, b, c[1..]);
      } else if a[0] == b[0] && IsSubsequence(a[1..], b[1..]) {
        SubsequenceTransitive(a[1..], b[1..], c[1..]);
      } else {
        SubsequenceTransitive(a, b[1..], c[1..]);
      }
    }
  }

  lemma {:induction false} FilterIsSubsequence<T>(s: seq<T>, p: T -> bool)
    ensures IsSubsequence(Filter(s, p), s)
  {
    if |s| > 0 {
      FilterIsSubsequence(s[1..], p);
      if p(s[0]) {
        assert Filter(s, p)[1..] == Filter(s[1..], p);
      }
    }
  }

  /** Filtering twice in a row keeps exactly what one pass with the
      conjunction `both` keeps. */
  lemma {:induction false} FilterFilter<T>(s: seq<T>, p: T -> bool, q: T -> bool, both: T -> bool)
    requires forall x :: both(x) <==> p(x) && q(x)
    ensures Filter(Filter(s, p), q) == Filter(s, both)
  {
    if |s| > 0 {
      FilterFilter(s[1..], p, q, both);
      if p(s[0]) {
        assert Filter(s, p)[1..] == Filter(s[1..], p);
      }
    }
  }

  /** A filter that every element already passes changes nothing. */
  lemma {:induction false} FilterAllPass<T>(s: seq<T>, p: T -> bool)
    requires forall j :: 0 <= j < |s| ==> p(s[j])
    ensures Filter(s, p) == s
  {
    if |s| > 0 {
      FilterAllPass(s[1..], p);
    }
  }

  /** Filters with predicates that agree on every element keep the same elements. */
  lemma {:induction false} FilterCongruent<T>(s: seq<T>, p: T -> bool, q: T -> bool)
    requires forall j :: 0 <= j < |s| ==> p(s[j]) == q(s[j])
    ensures Filter(s, p) == Filter(s, q)
  {
    if |s| > 0 {
      FilterCongruent(s[1..], p, q);
    }
  }

  /** Filter distributes over concatenation. */
  lemma {:induction false} FilterAppend<T>(a: seq<T>, b: seq<T>, p: T -> bool)
    ensures Filter(a + b, p) == Filter(a, p) + Filter(b, p)
  {
    if |a| == 0 {
      assert a + b == b;
    } else {
      assert (a + b)[1..] == a[1..] + b;
      FilterAppend(a[1..], b, p);
    }
  }

  /** Filtering keeps every copy of a passing element and no copy of a
      failing one. */
  lemma {:induction false} FilterMultiplicity<T>(s: seq<T>, p: T -> bool, x: T)
    ensures multiset(Filter(s, p))[x] == if p(x) then multiset(s)[x] else 0
  {
    if |s| > 0 {
      FilterMultiplicity(s[1..], p, x);
      assert s == [s[0]] + s[1..];
      if p(s[0]) {
        assert Filter(s, p) == [s[0]] + Filter(s[1..], p);
      }
    }
  }

  /** The number of elements satisfying `p` (the `filter(...).length` idiom). */
  function Count<T>(s: seq<T>, p: T -> bool): (n: nat)
    ensures n <= |s|
    ensures n == 0 <==> forall j :: 0 <= j < |s| ==> !p(s[j])
  {
    assert |Filter(s, p)| > 0 ==> Filter(s, p)[0] in s;
    |Filter(s, p)|
  }
}

=== FILE: sorting.dfy ===
/** The "newest first" ordering the profile page and the admin dashboard apply
    with `sort((a, b) => time(b.createdAt) - time(a.createdAt))`: a stable sort
    by a numeric key, in descending order. */
module Sorting {

  /** Adjacent elements never increase in key. */
  ghost predicate SortedDesc<T>(s: seq<T>, key: T -> int)
  {
    forall i :: 0 < i < |s| ==> key(s[i - 1]) >= key(s[i])
  }

  /** Puts `x` in front of the first element whose key is not larger; an element
      earlier in the input therefore stays ahead of later ones with the same key. */
  function Insert<T>(x: T, t: seq<T>, key: T -> int): (r: seq<T>)
    requires SortedDesc(t, key)
    ensures |r| == |t| + 1
    ensures multiset(r) == multiset(t) + multiset{x}
    ensures SortedDesc(r, key)
    ensures r[0] == x || (|t| > 0 && r[0] == t[0])
  {
    if |t| == 0 || key(x) >= key(t[0]) then
      [x] + t
    else
      var rest := Insert(x, t[1..], key);
      assert t == [t[0]] + t[1..];
      [t[0]] + rest
  }

  /** Stable insertion sort, newest (largest key) first. */
  function SortDesc<T>(s: seq<T>, key: T -> int): (r: seq<T>)
    ensures |r| == |s|
    ensures multiset(r) == multiset(s)
    ensures SortedDesc(r, key)
  {
    if |s| == 0 then []
    else
      assert s == [s[0]] + s[1..];
      Insert(s[0], SortDesc(s[1..], key), key)
  }

  /** Adjacent ordering gives the ordering of every pair. */
  lemma {:induction false} SortedDescPairwise<T>(s: seq<T>, key: T -> int, i: int, j: int)
    requires SortedDesc(s, key)
    requires 0 <= i <= j < |s|
    ensures key(s[i]) >= key(s[j])
    decreases j - i
  {
    if i < j {
      SortedDescPairwise(s, key, i + 1, j);
    }
  }

  /** A prefix of a sorted sequence is sorted and drawn from it. */
  lemma PrefixOfSorted<T>(s: seq<T>, key: T -> int, n: nat)
    requires SortedDesc(s, key)
    requires n <= |s|
    ensures SortedDesc(s[..n], key)
    ensures forall j :: 0 <= j < n ==> s[..n][j] in multiset(s)
  {
    forall j | 0 <= j < n ensures s[..n][j] in multiset(s) {
      assert s[..n][j] == s[j];
    }
  }

  /** In a sorted sequence, every element beyond a prefix has a key no larger
      than any key in the prefix. */
  lemma PrefixHoldsLargest<T>(s: seq<T>, key: T -> int, n: nat, x: T, j: nat)
    requires SortedDesc(s, key)
    requires j < n <= |s|
    requires multiset(s)[x] > multiset(s[..n])[x]
    ensures key(s[j]) >= key(x)
  {
    assert s == s[..n] + s[n..];
    assert multiset(s) == multiset(s[..n]) + multiset(s[n..]);
    assert x in multiset(s[n..]);
    var m :| 0 <= m < |s[n..]| && s[n..][m] == x;
    SortedDescPairwise(s, key, j, n + m);
  }
}

=== FILE: text.dfy ===
/** The JavaScript string operations the storefront relies on: `includes`,
    `length` (in UTF-16 code units) and the decimal rendering of a number in a
    template literal. Dafny strings are sequences of Unicode scalar values. */
module Text {
  import Seqs

  /** `needle` occurs in `hay` starting at position `i`. */
  ghost predicate OccursAt(hay: string, needle: string, i: int)
  {
    0 <= i && i + |needle| <= |hay| && hay[i..i + |needle|] == needle
  }

  /** `hay.includes(needle)`; an empty needle is always included. */
  function Contains(hay: string, needle: string): (r: bool)
    ensures r <==> exists i :: OccursAt(hay, needle, i)
    decreases |hay|
  {
    if |needle| <= |hay| && hay[..|needle|] == needle then
      assert OccursAt(hay, needle, 0);
      true
    else if |hay| == 0 then
      assert forall i :: !OccursAt(hay, needle, i);
      false
    else
      var r := Contains(hay[1..], needle);
      assert forall i :: OccursAt(hay[1..], needle, i) <==> OccursAt(hay, needle, i + 1);
      assert !OccursAt(hay, needle, 0);
      assert forall i :: OccursAt(hay, needle, i) ==> i == 0 || OccursAt(hay[1..], needle, i - 1);
      r
  }

  /** A character outside the Basic Multilingual Plane, which UTF-16 encodes
      as a surrogate pair. */
  predicate IsAstral(c: char)
  {
    c as int >= 0x1_0000
  }

  /** `s.length`: one code unit per character, plus one more for each
      character outside the Basic Multilingual Plane. */
  function Utf16Length(s: string): (n: nat)
    ensures n == |s| + Seqs.Count(s, IsAstral)
    ensures n == |s| <==> forall j :: 0 <= j < |s| ==> !IsAstral(s[j])
  {
    if |s| == 0 then 0
    else (if s[0] as int < 0x1_0000 then 1 else 2) + Utf16Length(s[1..])
  }

  /** The length of a concatenation is the sum of the lengths. */
  lemma {:induction false} Utf16LengthAppend(a: string, b: string)
    ensures Utf16Length(a + b) == Utf16Length(a) + Utf16Length(b)
  {
    if |a| == 0 {
      assert a + b == b;
    } else {
      var unit := if a[0] as int < 0x1_0000 then 1 else 2;
      assert (a + b)[0] == a[0] && (a + b)[1..] == a[1..] + b;
      assert Utf16Length(a + b) == unit + Utf16Length(a[1..] + b);
      Utf16LengthAppend(a[1..], b);
    }
  }

  function DigitChar(d: nat): (c: char)
    requires d < 10
    ensures '0' <= c <= '9'
  {
    ('0' as int + d) as char
  }

  /** The number a string of decimal digits denotes, most significant first. */
  function DecimalValue(r: string): nat
    requires forall j :: 0 <= j < |r| ==> '0' <= r[j] <= '9'
  {
    if |r| == 0 then 0
    else 10 * DecimalValue(r[..|r| - 1]) + (r[|r| - 1] as int - '0' as int)
  }

  /** Decimal digits of a natural number, most significant first, without
      leading zeros. */
  function NatToString(n: nat): (r: string)
    ensures |r| > 0
    ensures forall j :: 0 <= j < |r| ==> '0' <= r[j] <= '9'
    ensures DecimalValue(r) == n
    ensures r[0] == '0' <==> n == 0
    ensures n < 10 <==> |r| == 1
  {
    if n < 10 then [DigitChar(n)]
    else
      var r := NatToString(n / 10) + [DigitChar(n % 10)];
      assert r[..|r| - 1] == NatToString(n / 10);
      r
  }

  /** `${n}` for an integer value `n`: a minus sign for negative values, then
      the digits of the magnitude. */
  function IntToString(n: int): (r: string)
    ensures |r| > 0
    ensures n < 0 <==> r[0] == '-'
    ensures forall j :: 0 <= j < |r| && (j > 0 || n >= 0) ==> '0' <= r[j] <= '9'
    ensures n >= 0 ==> DecimalValue(r) == n
    ensures n < 0 ==> |r| > 1 && DecimalValue(r[1..]) == -n
  {
    if n < 0 then
      var digits := NatToString(-n);
      assert ("-" + digits)[1..] == digits;
      "-" + digits
    else NatToString(n)
  }
}

=== FILE: workflow.dfy ===
/** The admin dashboard (src/pages/AdminDashboard.tsx): the order action
    handler, the statistics and recent-order list it recomputes, and the rule
    for which buttons it draws under each order.

    Two layers are kept apart. `ApplyAction` is the handler: it looks the order
    up by id and sets the new status without looking at the current one. The
    state machine pending -> approved/rejected, approved -> delivered exists only
    through `Offered`, the buttons drawn under the recent orders. */
module OrderWorkflow {
  import opened Wrappers
  import opened Records
  import Seqs
  import Sorting
  import Text

  datatype Action = Approve | Deliver | Reject

  /** The id every action's log entry is attributed to. */
  const AdminActorId: int := 1

  /** At most this many orders are listed, and only these get buttons. */
  const RecentLimit: nat := 10

  function ActionName(a: Action): string
  {
    match a
    case Approve => "approve"
    case Deliver => "deliver"
    case Reject => "reject"
  }

  function TargetStatus(a: Action): Status
  {
    match a
    case Approve => Approved
    case Deliver => Delivered
    case Reject => Rejected
  }

  /** `rejectionReason || undefined`: an empty reason counts as none. */
  function EffectiveReason(reason: Option<string>): (r: Option<string>)
    ensures r.Some? <==> reason.Some? && reason.value != ""
    ensures r.Some? ==> r == reason
  {
    match reason
    case Some(text) => if text != "" then reason else None
    case None => None
  }

  const ReasonSeparator: string := " - السبب: "

  /** The message sent to the order's owner. */
  function ActionMessage(orderId: int, a: Action, reason: Option<string>): string
  {
    var id := Text.IntToString(orderId);
    match a
    case Approve => "تم الموافقة على طلبك #" + id
    case Deliver => "تم تسليم طلبك #" + id
    case Reject =>
      "تم رفض طلبك #" + id
        + (match EffectiveReason(reason) case Some(text) => ReasonSeparator + text case None => "")
  }

  /** A rejection message carries the reason exactly when a non-empty one is
      given; approvals and deliveries never mention one. */
  lemma MessageMentionsReasonOnlyOnReject(orderId: int, a: Action, reason: Option<string>)
    ensures a == Reject && EffectiveReason(reason).Some? ==>
      ActionMessage(orderId, a, reason)
        == ActionMessage(orderId, a, None) + ReasonSeparator + reason.value
    ensures a != Reject || EffectiveReason(reason).None? ==>
      ActionMessage(orderId, a, reason) == ActionMessage(orderId, a, None)
  {
  }

  /** The admin log text, e.g. `reject order #7`. */
  function ActionLogEntry(orderId: int, a: Action): string
  {
    ActionName(a) + " order #" + Text.IntToString(orderId)
  }

  /** The first order with the given id. */
  function FindOrder(orders: seq<Order>, id: int): (r: Option<nat>)
    ensures r.Some? ==> r.value < |orders| && orders[r.value].id == id
    ensures r.Some? ==> forall j :: 0 <= j < r.value ==> orders[j].id != id
    ensures r.None? ==> forall j :: 0 <= j < |orders| ==> orders[j].id != id
  {
    Seqs.FindFirst(orders, (o: Order) => o.id == id)
  }

  /** `handleOrderAction`: an unknown id changes nothing; otherwise the first
      order with that id gets the action's status and the effective reason,
      its owner is notified and the action is logged for the admin. */
  function ApplyAction(s: Store, orderId: int, a: Action, reason: Option<string>, now: int)
    : (r: Store)
    ensures FindOrder(s.orders, orderId).None? ==> r == s
    ensures r.users == s.users && r.products == s.products && r.categories == s.categories
    ensures |r.orders| == |s.orders|
    ensures FindOrder(s.orders, orderId).Some? ==>
      var i := FindOrder(s.orders, orderId).value;
      && r.orders[i].status == TargetStatus(a)
      && r.orders[i].rejectionReason == EffectiveReason(reason)
      && r.orders[i].(status := s.orders[i].status, rejectionReason := s.orders[i].rejectionReason)
           == s.orders[i]
      && (forall j :: 0 <= j < |s.orders| && j != i ==> r.orders[j] == s.orders[j])
      && r.notifications
           == AddNotification(s.notifications, s.orders[i].userId, ActionMessage(orderId, a, reason), now)
      && r.logs == AddLog(s.logs, AdminActorId, ActionLogEntry(orderId, a), now)
  {
    match FindOrder(s.orders, orderId)
    case None => s
    case Some(i) =>
      var order := s.orders[i];
      var updated := order.(status := TargetStatus(a), rejectionReason := EffectiveReason(reason));
      s.(orders := s.orders[i := updated],
         notifications := AddNotification(s.notifications, order.userId, ActionMessage(orderId, a, reason), now),
         logs := AddLog(s.logs, AdminActorId, ActionLogEntry(orderId, a), now))
  }

  /** No action leads back to `pending`: an order pending afterwards was
      pending before, whatever the action and the order's status. */
  lemma NeverBackToPending(s: Store, orderId: int, a: Action, reason: Option<string>, now: int)
    ensures var r := ApplyAction(s, orderId, a, reason, now);
      forall j :: 0 <= j < |s.orders| && r.orders[j].status == Pending ==> s.orders[j].status == Pending
  {
  }

  /** The handler alone enforces no state machine: approving a delivered
      order makes it approved again. */
  lemma HandlerIgnoresCurrentStatus(o: Order, now: int)
    requires o.status == Delivered
    ensures var s := Store([], [], [], [o], [], []);
      ApplyAction(s, o.id, Approve, None, now).orders[0].status == Approved
  {
    var s := Store([], [], [], [o], [], []);
    assert FindOrder(s.orders, o.id) == Some(0);
  }

  // ---------------------------------------------------------------------
  // The buttons drawn under each order: the user-interface state machine
  // ---------------------------------------------------------------------

  /** Approve and reject are drawn under a pending order, deliver under an
      approved one, nothing under a delivered or rejected one. */
  predicate Offered(current: Status, a: Action)
  {
    match current
    case Pending => a == Approve || a == Reject
    case Approved => a == Deliver
    case Delivered => false
    case Rejected => false
  }

  /** The transitions of the order lifecycle. */
  predicate ValidTransition(from: Status, to: Status)
  {
    || (from == Pending && to == Approved)
    || (from == Pending && to == Rejected)
    || (from == Approved && to == Delivered)
  }

  /** The buttons implement exactly the lifecycle: an action is offered in a
      state iff it leads along a lifecycle transition; `delivered` and
      `rejected` offer nothing. */
  lemma OfferedMatchesLifecycle(current: Status, a: Action)
    ensures Offered(current, a) <==> ValidTransition(current, TargetStatus(a))
    ensures current == Delivered || current == Rejected ==> !Offered(current, a)
  {
  }

  /** The dashboard lists the newest orders first, at most ten of them. */
  function RecentOrders(orders: seq<Order>): (r: seq<Order>)
    ensures |r| == if |orders| < RecentLimit then |orders| else RecentLimit
    ensures Sorting.SortedDesc(r, OrderCreatedAt)
    ensures forall j :: 0 <= j < |r| ==> r[j] in multiset(orders)
    ensures multiset(r) <= multiset(orders)
  {
    var sorted := Sorting.SortDesc(orders, OrderCreatedAt);
    var n := if |sorted| < RecentLimit then |sorted| else RecentLimit;
    Sorting.PrefixOfSorted(sorted, OrderCreatedAt, n);
    assert sorted == sorted[..n] + sorted[n..];
    sorted[..n]
  }

  /** Every order left off the list is no newer than every order on it. */
  lemma RecentAreNewest(orders: seq<Order>, o: Order, j: nat)
    requires multiset(orders)[o] > multiset(RecentOrders(orders))[o]
    requires j < |RecentOrders(orders)|
    ensures RecentOrders(orders)[j].createdAt >= o.createdAt
  {
    var sorted := Sorting.SortDesc(orders, OrderCreatedAt);
    var n := |RecentOrders(orders)|;
    assert RecentOrders(orders) == sorted[..n];
    Sorting.PrefixHoldsLargest(sorted, OrderCreatedAt, n, o, j);
  }

  /** A press the dashboard can produce: the button of the `k`-th listed order,
      with a reason only for a rejection. */
  predicate UiPress(orders: seq<Order>, k: nat, a: Action, reason: Option<string>)
  {
    var recent := RecentOrders(orders);
    k < |recent| && Offered(recent[k].status, a) && (a != Reject ==> reason.None?)
  }

  /** With unique order ids, a press of a drawn button moves the listed order
      along a lifecycle transition and leaves every other order untouched. */
  lemma UiPressFollowsLifecycle(s: Store, k: nat, a: Action, reason: Option<string>, now: int)
    requires UniqueIds(s.orders, OrderId)
    requires UiPress(s.orders, k, a, reason)
    ensures var shown := RecentOrders(s.orders)[k];
      var r := ApplyAction(s, shown.id, a, reason, now);
      exists i :: 0 <= i < |s.orders| && s.orders[i] == shown
        && ValidTransition(s.orders[i].status, r.orders[i].status)
        && forall j :: 0 <= j < |s.orders| && j != i ==> r.orders[j] == s.orders[j]
  {
    var shown := RecentOrders(s.orders)[k];
    assert shown in multiset(s.orders);
    var i :| 0 <= i < |s.orders| && s.orders[i] == shown;
    var f := FindOrder(s.orders, shown.id);
    assert f == Some(i) by {
      assert f.Some?;
      assert OrderId(s.orders[f.value]) == OrderId(s.orders[i]);
    }
    OfferedMatchesLifecycle(shown.status, a);
  }

  /** A rejection reason only ever sits on a rejected order. */
  ghost predicate ReasonOnlyWhenRejected(orders: seq<Order>)
  {
    forall j :: 0 <= j < |orders| && orders[j].rejectionReason.Some? ==> orders[j].status == Rejected
  }

  /** Presses of drawn buttons keep reasons on rejected orders only (approve
      and deliver pass no reason and so clear it). */
  lemma UiPressKeepsReasonInvariant(s: Store, k: nat, a: Action, reason: Option<string>, now: int)
    requires UiPress(s.orders, k, a, reason)
    requires ReasonOnlyWhenRejected(s.orders)
    ensures ReasonOnlyWhenRejected(ApplyAction(s, RecentOrders(s.orders)[k].id, a, reason, now).orders)
  {
  }

  // ---------------------------------------------------------------------
  // Statistics
  // ---------------------------------------------------------------------

  /** Orders that count towards revenue. */
  predicate Earning(o: Order) { o.status == Approved || o.status == Delivered }

  predicate IsPending(o: Order) { o.status == Pending }
  predicate IsApproved(o: Order) { o.status == Approved }
  predicate IsDelivered(o: Order) { o.status == Delivered }
  predicate IsRejected(o: Order) { o.status == Rejected }

  function SumTotals(orders: seq<Order>): int
  {
    if |orders| == 0 then 0 else orders[0].totalPrice + SumTotals(orders[1..])
  }

  /** Total revenue: the sum of the prices of approved and delivered orders. */
  function Revenue(orders: seq<Order>): int
  {
    SumTotals(Seqs.Filter(orders, Earning))
  }

  /** What one order contributes to revenue. */
  function Contribution(o: Order): int
  {
    if Earning(o) then o.totalPrice else 0
  }

  lemma {:induction false} SumTotalsAppend(a: seq<Order>, b: seq<Order>)
    ensures SumTotals(a + b) == SumTotals(a) + SumTotals(b)
  {
    if |a| == 0 {
      assert a + b == b;
    } else {
      assert (a + b)[1..] == a[1..] + b;
      SumTotalsAppend(a[1..], b);
    }
  }

  /** Revenue adds up over concatenated order lists. */
  lemma RevenueAppend(a: seq<Order>, b: seq<Order>)
    ensures Revenue(a + b) == Revenue(a) + Revenue(b)
  {
    Seqs.FilterAppend(a, b, Earning);
    SumTotalsAppend(Seqs.Filter(a, Earning), Seqs.Filter(b, Earning));
  }

  /** Revenue of a one-order list. */
  lemma RevenueSingle(o: Order)
    ensures Revenue([o]) == Contribution(o)
  {
    assert [o][1..] == [];
    assert Seqs.Filter([o], Earning) == if Earning(o) then [o] else [];
    assert SumTotals([o]) == o.totalPrice + SumTotals([o][1..]);
  }

  /** Replacing one order changes revenue by the difference of contributions. */
  lemma RevenueUpdate(orders: seq<Order>, i: nat, o: Order)
    requires i < |orders|
    ensures Revenue(orders[i := o]) == Revenue(orders) - Contribution(orders[i]) + Contribution(o)
  {
    var pre, post := orders[..i], orders[i + 1..];
    assert orders == pre + [orders[i]] + post;
    assert orders[i := o] == pre + [o] + post;
    RevenueAppend(pre + [orders[i]], post);
    RevenueAppend(pre, [orders[i]]);
    RevenueAppend(pre + [o], post);
    RevenueAppend(pre, [o]);
    RevenueSingle(orders[i]);
    RevenueSingle(o);
  }

  /** Approving a pending order adds its price to revenue; rejecting it or
      delivering an approved one leaves revenue unchanged. */
  lemma ActionRevenueEffect(s: Store, orderId: int, a: Action, reason: Option<string>, now: int)
    requires FindOrder(s.orders, orderId).Some?
    requires Offered(s.orders[FindOrder(s.orders, orderId).value].status, a)
    ensures var o := s.orders[FindOrder(s.orders, orderId).value];
      Revenue(ApplyAction(s, orderId, a, reason, now).orders)
        == Revenue(s.orders) + (if a == Approve then o.totalPrice else 0)
  {
    var i := FindOrder(s.orders, orderId).value;
    var r := ApplyAction(s, orderId, a, reason, now);
    assert r.orders == s.orders[i := r.orders[i]];
    RevenueUpdate(s.orders, i, r.orders[i]);
  }

  datatype DashboardStats = DashboardStats(
    totalUsers: nat,
    totalProducts: nat,
    totalOrders: nat,
    totalRevenue: int,
    pendingOrders: nat,
    approvedOrders: nat,
    deliveredOrders: nat,
    rejectedOrders: nat)

  /** The figures `loadDashboardData` computes. */
  function Stats(s: Store): (r: DashboardStats)
    ensures r.pendingOrders + r.approvedOrders + r.deliveredOrders + r.rejectedOrders == r.totalOrders
    ensures r.totalOrders == |s.orders| && r.totalUsers == |s.users| && r.totalProducts == |s.products|
    ensures r.totalRevenue == Revenue(s.orders)
    ensures r.pendingOrders == Seqs.Count(s.orders, IsPending)
    ensures r.approvedOrders == Seqs.Count(s.orders, IsApproved)
    ensures r.deliveredOrders == Seqs.Count(s.orders, IsDelivered)
    ensures r.rejectedOrders == Seqs.Count(s.orders, IsRejected)
  {
    CountsPartition(s.orders);
    DashboardStats(
      |s.users|, |s.products|, |s.orders|, Revenue(s.orders),
      Seqs.Count(s.orders, IsPending), Seqs.Count(s.orders, IsApproved),
      Seqs.Count(s.orders, IsDelivered), Seqs.Count(s.orders, IsRejected))
  }

  /** Every order has exactly one of the four statuses. */
  lemma {:induction false} CountsPartition(orders: seq<Order>)
    ensures Seqs.Count(orders, IsPending) + Seqs.Count(orders, IsApproved)
          + Seqs.Count(orders, IsDelivered) + Seqs.Count(orders, IsRejected) == |orders|
  {
    if |orders| > 0 {
      CountsPartition(orders[1..]);
    }
  }
}

=== FILE: wrappers.dfy ===
/** Result and option types with `:-` support, shared by every handler of the storefront. */
module Wrappers {

  /** A value that may be absent (a JavaScript `undefined`/`null`). */
  datatype Option<+T> = None | Some(value: T) {

    /** An absent value stops a `:-` chain. */
    predicate IsFailure() {
      None?
    }

    /** The absence, re-typed for the enclosing chain. */
    function PropagateFailure<U>(): Option<U>
      requires None?
    {
      None
    }

    /** The present value, for `:-` to bind. */
    function Extract(): T
      requires Some?
    {
      value
    }
  }

  /** The outcome of a handler: the new value, or the error message it shows. */
  datatype Result<+R, +E> = Success(value: R) | Failure(error: E) {

    /** A failed handler stops a `:-` chain. */
    predicate IsFailure() {
      Failure?
    }

    /** The same error, re-typed for the enclosing chain. */
    function PropagateFailure<U>(): Result<U, E>
      requires Failure?
    {
      Failure(this.error)
    }

    /** The handler's new value, for `:-` to bind. */
    function Extract(): R
      requires Success?
    {
      value
    }
  }
}
